=== FILE: README.md ===
# Everest App in Dafny

A model of the application layer of the Everest PHP micro-framework
(`Everest\App`):

- the `Options` tree, with its dotted-path lookup, its recursive merge and the
  `from` conversion;
- the `OptionsProvider` that folds added options into the initial ones;
- the `App` container's delegate registry and deferred configuration queue;
- the static `Alias` component cache with its type-guarded `swap`;
- the `Session` option precedence and key-value operations on `$_SESSION`;
- the `RouterProvider`, `SessionProvider`, `RequestProvider` and
  `TwigProvider` container providers;
- the `require` helper of `AbstractContainerAwareController`.

PHP values are a datatype (`PhpValues.Value`). PHP arrays are ordered
association lists of entries. Their keys are integers or strings, and a string
that spells an integer in canonical form becomes an integer key
(`PhpValues.KeyOf`). The array primitives the code relies on are each defined
once, with their own contracts:

- `$a[$k] = $v`, `$a[] = $v` (next index: the largest integer key plus one);
- `unset`, `isset`, `in_array`, `array_merge`;
- `gettype` and truthiness.

Exceptions are values of a `Result` type: a thrown exception is `Throw(e)`.
Object state that PHP mutates in place is an immutable record here, and each
mutating method returns the new record. The static properties of `Alias`
become an explicit state record passed in and out of each call.

Each module corresponds to one PHP class:

| module | class |
|---|---|
| `PhpStrings`, `PhpValues` | PHP's string and array semantics |
| `Options`, `OptionsExamples` | `Everest\App\Options` and the behaviour its tests expect |
| `OptionsProvider` | `Everest\App\Provider\OptionsProvider` |
| `App` | `Everest\App\App` |
| `Alias` | `Everest\App\Alias` |
| `Session` | `Everest\App\Session` |
| `RouterProvider`, `SessionProvider`, `RequestProvider`, `TwigProvider` | the providers of the same name |
| `Controller` | `Everest\App\Controller\AbstractContainerAwareController` |
| `Framework` | the few values the application receives from the container and HTTP packages |

## Model

| member | source | states |
|---|---|---|
| PhpStrings.Explode | src/Everest/App/Options.php:57 | `explode('.', $path)` always yields at least one segment, and no segment contains a dot |
| PhpStrings.JoinExplode | src/Everest/App/Options.php:57 | joining the exploded segments with dots gives back the path, so no character of the path is lost |
| PhpStrings.ExplodeJoin | src/Everest/App/Options.php:57 | exploding dot-free segments joined with dots gives back the segments |
| PhpStrings.ExplodeDotted | src/Everest/App/Options.php:57 | the segments of `p.q` are the segments of `p` followed by those of `q` |
| PhpStrings.CanonicalIntOfIntString | src/Everest/App/Options.php:59 | every 64-bit integer, printed, is read back as that integer array key |
| PhpStrings.CanonicalIntIsIntString | src/Everest/App/Options.php:59 | a string becomes an integer key only when it is exactly how PHP prints that integer |
| PhpStrings.LastDot | src/Everest/App/Options.php:25 | `strrpos($s, '.')` reports a position holding a dot with no dot after it, or nothing when there is no dot |
| PhpStrings.LastDotBefore | src/Everest/App/Options.php:25 | in `a.b` with a dot-free `b`, the last dot is the one just before `b` |
| PhpStrings.AsciiLower | src/Everest/App/Options.php:25 | `strtolower` keeps the length and lowers only the ASCII capitals |
| PhpValues.KeyOfIntString | src/Everest/App/Options.php:59 | `$a["5"]` and `$a[5]` address the same slot |
| PhpValues.KeyOfInjective | src/Everest/App/Options.php:59 | distinct segment strings address distinct array slots |
| PhpValues.IdentifierKey | src/Everest/App/Options.php:85 | a name starting like an identifier is a string key and not `is_numeric` |
| PhpValues.Assign | src/Everest/App/Options.php:89 | `$a[$k] = $v`: `k` then holds `v` and no other key changes; an existing key keeps its place, a new key goes last; unique keys stay unique |
| PhpValues.NextIndex | src/Everest/App/Options.php:87 | the index `$a[] = $v` uses is above every integer key, is 0 when there is none, and otherwise follows the largest |
| PhpValues.Append | src/Everest/App/Options.php:87 | `$a[] = $v` adds `v` last under a fresh key and changes no other lookup |
| PhpValues.Unset | src/Everest/App/Session.php:225 | after `unset($a[$k])` the key is gone, the array is one entry shorter if it had the key, and other keys are unchanged |
| PhpValues.Contains | src/Everest/App/Options.php:86 | `in_array` holds exactly when some entry has the value |
| PhpValues.TypeNameDistinguishesKinds | src/Everest/App/Alias.php:68 | `gettype` of two values agrees exactly when they are the same kind of value |
| PhpValues.MergeIntoStringKey | src/Everest/App/Session.php:76 | under `array_merge` a string key takes the later array's value if it has one, else keeps the earlier value |
| PhpValues.ListFind | src/Everest/App/Controller/AbstractContainerAwareController.php:49 | the list `[v0, v1, ...]` holds its i-th value under key i |
| PhpValues.ListAppend | src/Everest/App/Session.php:193 | appending to a list extends the list by that value |
| Options.Step | src/Everest/App/Options.php:59-65 | one segment descends into an array entry exactly when it is set (present and not null), into an object property whenever it exists, and into nothing else |
| Options.Lookup | src/Everest/App/Options.php:54-76 | a found path returns its value; a missing path returns a non-null default, or throws `InvalidArgumentException` for a null default |
| Options.Invoke | src/Everest/App/Options.php:54-76 | the segment loop, with its early return, computes exactly the left-to-right walk `Lookup` is defined by |
| Options.WalkOne | src/Everest/App/Options.php:57-61 | a path of one segment is a single step |
| Options.WalkConcat | src/Everest/App/Options.php:57-73 | walking two segment lists in sequence walks the first, then the second from where the first ended |
| Options.AtDotted | src/Everest/App/Options.php:57-73 | the value at `p.q` is the value at `q` inside the value at `p` |
| Options.LookupDotted | src/Everest/App/Options.php:57-71 | looking up `p.q` is looking up `q` in the array found at `p`, and falls back to the default when nothing is at `p` |
| Options.LookupSingleSegment | src/Everest/App/Options.php:59-71 | a dot-free name is found exactly when its entry is set, so an entry holding null counts as missing |
| Options.LookupIgnoresDefaultWhenFound | src/Everest/App/Options.php:59-75 | a found value is returned whatever the default |
| Options.AtName | src/Everest/App/Options.php:57-65 | a dot-free path is one step |
| Options.LookupEntryPath | src/Everest/App/Options.php:57-61 | `p.q` below an array entry `p` is entry `q` of that array |
| Options.LookupUnderMissingEntry | src/Everest/App/Options.php:59-70 | `p.q` below an unset entry `p` yields the non-null default |
| Options.LookupPropertyPath | src/Everest/App/Options.php:63-65 | `p.q` below an object is its property `q`, even when that property holds null |
| Options.MergeRecursive | src/Everest/App/Options.php:78-94 | the merge keeps every old key and keeps keys unique |
| Options.Merge | src/Everest/App/Options.php:96-100 | `merge` keeps every key the receiver had and keeps keys unique, and a key the other options do not mention keeps the receiver's value |
| Options.MergeEntry | src/Everest/App/Options.php:83-90 | one loop iteration keeps every key already present and keeps keys unique |
| Options.MergeEntryIntoList | src/Everest/App/Options.php:85-87 | a scalar under a numeric key is appended to a list unless the list already holds it |
| Options.MergeEntryOther | src/Everest/App/Options.php:83-90 | an iteration for another key leaves a present key, or any string key, untouched |
| Options.MergeKeepsUntouched | src/Everest/App/Options.php:80-91 | keys the new options do not mention keep their old value |
| Options.MergeAtKey | src/Everest/App/Options.php:82-90 | under a key the new options mention: two arrays merge recursively, a string key takes the new value, a numeric key already present keeps the old one |
| Options.MergeScalarStep | src/Everest/App/Options.php:85-87 | a numeric-keyed scalar changes nothing if present, else is appended at the next index |
| Options.MergeListPrefix | src/Everest/App/Options.php:80-87 | merging a list of scalars keeps the old entries unchanged, in front |
| Options.MergeListContains | src/Everest/App/Options.php:85-87 | the merge of a scalar list holds a value exactly when either side holds it |
| Options.MergeListDistinct | src/Everest/App/Options.php:86 | the merge of a scalar list adds no repeated value |
| Options.MergeIntoList | src/Everest/App/Options.php:80-93 | merging scalars into a list gives the old values followed by each new value not yet present, once, in order |
| Options.MergeListUnion | src/Everest/App/Options.php:85-87 | merging lists of scalars is an order-preserving set union |
| Options.Extension | src/Everest/App/Options.php:25 | a path has an extension exactly when it contains a dot |
| Options.ExtensionAsWrittenMisreadsDotlessName | src/Everest/App/Options.php:25-29 | as written, the dot-free file name `xphp` is taken to have extension `php` and would be included; with the intended extension it is refused |
| Options.ExtensionDecidesFormat | src/Everest/App/Options.php:25-35 | with the intended extension, a dot-free path is refused, and a dotted path's format is decided by its text after the last dot |
| Options.ObjectToArray | src/Everest/App/Options.php:40 | `(array) $object` has one entry per property, in order, under the property's name as a key |
| Options.FormatOf | src/Everest/App/Options.php:27-35 | the extension `php` selects the PHP loader and `json` the JSON loader; any other extension, or none, throws `InvalidArgumentException` |
| Options.From | src/Everest/App/Options.php:18-47 | arrays and objects are converted; a readable file is handed to the loader exactly when its extension names a format, in that format, and otherwise throws `InvalidArgumentException`; any other source throws `InvalidArgumentException` |
| Options.FromAsWrittenLoadsDotlessName | src/Everest/App/Options.php:24-29 | as written, the readable dot-free file `xphp` is included as PHP, while the intended conversion refuses it |
| Options.FromAsWritten | src/Everest/App/Options.php:18-47 | as written, a readable file is loaded exactly when the extension the code computes names a format, in that format; it differs from the intended `From` only on readable paths without a dot |
| Options.FromDecidesByExtension | src/Everest/App/Options.php:24-35 | a readable `dir.ext` is loaded as PHP or JSON exactly when its lower-cased extension is `php` or `json`, and refused otherwise |
| Options.FromObjectKeepsProperties | src/Everest/App/Options.php:39-41 | options built from an object hold each property's value under its name |
| OptionsExamples.OverwriteExample | tests/OptionsTest.php:63-88 | `['b'=>1,'c'=>2]` merged with `['b'=>3]` is `['b'=>3,'c'=>2]` |
| OptionsExamples.ListUnionExample | tests/OptionsTest.php:87 | `[1,2,3]` merged with `[3,4,5]` is `[1,2,3,4,5]` |
| OptionsExamples.MergedNested | tests/OptionsTest.php:84-85 | the nested arrays under `a` merge key by key |
| OptionsExamples.MergedScalar | tests/OptionsTest.php:86 | the scalar under `d` is replaced |
| OptionsExamples.MergedList | tests/OptionsTest.php:87 | the lists under `e` are united |
| OptionsExamples.MergedLookups | tests/OptionsTest.php:84-87 | the four paths the merge test reads return 3, 2, 20 and `[1,2,3,4,5]` |
| OptionsExamples.MergeExample | tests/OptionsTest.php:63-88 | merging the test's two option sets yields the values the test expects |
| OptionsExamples.AccessExample | tests/OptionsTest.php:38-55 | paths descend through arrays and objects alike |
| OptionsExamples.DefaultExample | tests/OptionsTest.php:57-61 | a path into empty options yields the default |
| OptionsProvider.New | src/Everest/App/Provider/OptionsProvider.php:23-28 | given options are kept as the initial ones (an object is truthy); otherwise they are empty; nothing is pending |
| OptionsProvider.Add | src/Everest/App/Provider/OptionsProvider.php:30-33 | `add` queues the options behind the earlier ones and changes nothing else |
| OptionsProvider.Factory | src/Everest/App/Provider/OptionsProvider.php:35-40 | with nothing added the initial options come back; the result becomes the provider's initial options, since `merge` mutates its receiver |
| OptionsProvider.MergeAllSnoc | src/Everest/App/Provider/OptionsProvider.php:37-39 | the fold over one more element merges that element last |
| OptionsProvider.FactoryAfterAdd | src/Everest/App/Provider/OptionsProvider.php:30-39 | the result after an `add` is the earlier result with the new options merged in, so the factory is a left fold in call order |
| OptionsProvider.LaterAdditionWins | src/Everest/App/Provider/OptionsProvider.php:37-39 | the options added last win on a string key whose value is not merged recursively |
| OptionsProvider.UntouchedKeySurvives | src/Everest/App/Provider/OptionsProvider.php:37-39 | an initial key no added options mention keeps its initial value |
| App.MergeTables | src/Everest/App/App.php:53 | `array_merge` of delegate tables has both tables' names, and a later entry replaces an earlier one of the same name |
| App.Provider | src/Everest/App/App.php:48-57 | after boot the container refuses and nothing changes; otherwise the provider is registered first, then a `delegates` array is merged into the table, a missing property changes nothing, and a non-array throws `TypeError` |
| App.Call | src/Everest/App/App.php:110-126 | outside the initial state every call throws `RuntimeException`; a known delegate is queued with its arguments as one entry; an unknown name throws `BadMethodCallException` |
| App.Controller | src/Everest/App/App.php:72-75 | `controller(n, d)` registers the service `n + "Controller"` and nothing else; after boot the container refuses it |
| App.WithOptions | src/Everest/App/App.php:87-96 | `options` converts at once with the intended `Options.From`, so a readable file without a dot in its name is refused where the code as written would include it (see Findings), for a readable file through the loader, and queues exactly one entry that adds the converted or loaded options to the options provider; a failed conversion or a failed load throws its exception and queues nothing; after boot the container refuses the entry |
| App.AddedOptionsSnoc | src/Everest/App/App.php:91-93 | an entry queued last carries its options after those of the earlier entries |
| App.ApplyConfigsAddsInOrder | src/Everest/App/App.php:91-93 | running the queue leaves the provider's pending options followed by exactly the options the queued entries carry, in queue order; nothing is merged and the initial options are unchanged |
| App.TwoOptionsQueued | src/Everest/App/App.php:87-96 | two `options` calls with arrays on a fresh app both succeed and queue their options in call order |
| App.OptionsMergedInOrderAtBoot | src/Everest/App/App.php:87-96 | two `options` calls yield, at boot, the initial options merged with the first, then the second |
| App.RunResponse | src/Everest/App/App.php:138-140 | a null router response is replaced by a 500 "Internal server error" response; any other is kept |
| App.RouterDelegatesNotRegistered | src/Everest/App/App.php:52-54 | this repository's router provider declares `get` in `getDelegates()` but has no `delegates` property, so registering it adds no delegate and `get` stays unknown |
| App.DefineRequestDeferred | src/Everest/App/App.php:116-122 | after registering the request provider, `defineRequest(...)` queues a deferred call of its `setRequest` with the same arguments |
| App.CallQueuesAtMostOne | src/Everest/App/App.php:110-126 | a delegate call succeeds exactly for a known name in the initial state, then adds exactly one entry at the end of the queue; a failed call leaves the app unchanged |
| Alias.Initial | src/Everest/App/Alias.php:25-27 | no app is bound and the cache is empty |
| Alias.Reset | src/Everest/App/Alias.php:29-38 | each flag independently clears the cache or unbinds the app |
| Alias.SetApp | src/Everest/App/Alias.php:47-50 | binding an app keeps the cache |
| Alias.GetName | src/Everest/App/Alias.php:59-62 | a class that does not override `getName` throws `LogicException` |
| Alias.Component | src/Everest/App/Alias.php:93-98 | a cached non-null component is returned without reading the app; otherwise the app's component is read and cached; without an app, null is cached; an unknown name fails in the container |
| Alias.Swap | src/Everest/App/Alias.php:64-86 | the current component is read and cached first, and an exception from that read propagates; a different `gettype` or object class throws `InvalidArgumentException` and stores nothing more; the swap succeeds exactly when the read succeeds with the same type and class, and then caches the new component under the alias's name |
| Alias.SwapThenComponent | src/Everest/App/Alias.php:84-97 | after a successful swap to a non-null component, the alias returns that component |
| Alias.SwapLeavesOtherNames | src/Everest/App/Alias.php:84-85 | a swap leaves every other name's cache entry and the bound app alone |
| Alias.CachedComponentOutlivesApp | src/Everest/App/Alias.php:29-97 | a cached component survives binding another app, until the cache is reset |
| Alias.UnnamedAliasFails | src/Everest/App/Alias.php:59-66 | an alias without a name fails on `component` and on `swap`, and a failed swap changes nothing |
| Session.MergeIntoEmpty | src/Everest/App/Session.php:76 | `array_merge` of one array keeps its string-keyed entries |
| Session.ArrayMergeThree | src/Everest/App/Session.php:76 | `array_merge` of three arrays merges them in turn |
| Session.New | src/Everest/App/Session.php:74-78 | for arrays with unique keys, each string-keyed session option comes from the caller's options if set, else from the defaults, else from the cookie parameters |
| Session.ArrayMergePrecedence | src/Everest/App/Session.php:76 | the three-way `array_merge` gives the caller's options precedence over the defaults, and the defaults over the cookie parameters |
| Session.DefaultsOverrideCookieParams | src/Everest/App/Session.php:27-36 | without caller options, `secure` and `httponly` are false and `cookieonly` is true, whatever the cookie parameters say |
| Session.Get | src/Everest/App/Session.php:138-151 | `get` is non-null exactly when `has` holds, and then it is the stored value; an absent or null key gives null |
| Session.Has | src/Everest/App/Session.php:138-141 | `has` holds exactly when the first entry under the key holds a non-null value |
| Session.Set | src/Everest/App/Session.php:158-162 | after `set(k, v)`, `get(k)` is `v` and every other key reads as before |
| Session.Push | src/Everest/App/Session.php:184-201 | an unset key becomes `[v]`; a list gets `v` appended; a single value `x` becomes `[x, v]`; other keys are unchanged |
| Session.PushOntoList | src/Everest/App/Session.php:192-195 | pushing onto a list keeps its values and puts the new one last |
| Session.Delete | src/Everest/App/Session.php:223-226 | `delete(k)` removes the key and leaves other keys as they were |
| Session.CountAfterSet | src/Everest/App/Session.php:277-280 | `set` on a new key adds one to `count()`, and on an existing key adds none |
| Session.Count | src/Everest/App/Session.php:277-280 | `count()` is zero exactly when the session holds no key |
| Session.Refuse | src/Everest/App/Session.php:174-177 | `with`, `withAdded` and `without` always throw `LogicException` and change nothing |
| RouterProvider.New | src/Everest/App/Provider/RouterProvider.php:51 | a new provider is not constructed and has no injector, routes, contexts or default handler |
| RouterProvider.GetFactory | src/Everest/App/Provider/RouterProvider.php:57-60 | the factory's only dependency is `Injector` |
| RouterProvider.GetDelegates | src/Everest/App/Provider/RouterProvider.php:66-78 | the delegate names are exactly the eight route methods, each mapped to the method of the same name |
| RouterProvider.NoPatchDelegate | src/Everest/App/Provider/RouterProvider.php:66-78 | there are eight delegates and none is `patch` |
| RouterProvider.Factory | src/Everest/App/Provider/RouterProvider.php:89-95 | `factory` stores the injector, marks the provider constructed and changes no registration |
| RouterProvider.Route | src/Everest/App/Provider/RouterProvider.php:104-113 | `route` hands the wrapped handler to the parent router and changes nothing else |
| RouterProvider.Context | src/Everest/App/Provider/RouterProvider.php:122-129 | `context` hands the wrapped invoker to the parent router and changes nothing else |
| RouterProvider.Otherwise | src/Everest/App/Provider/RouterProvider.php:138-146 | `otherwise` sets the wrapped default handler and changes nothing else |
| RouterProvider.Run | src/Everest/App/Provider/RouterProvider.php:104-146 | a running wrapper calls the injector it holds then; a route handler gets locals `RouteParameter` and `Request` and the middleware arguments in order; a context invoker gets no locals and the router; a default handler gets only `Request`; without an injector, the call fails |
| RouterProvider.RouteUsesInjectorGivenLater | src/Everest/App/Provider/RouterProvider.php:89-113 | a route added during configuration runs through the injector `factory` receives afterwards |
| RouterProvider.Handle | src/Everest/App/Provider/RouterProvider.php:156-163 | before `factory` has run, `handle` throws `LogicException`; afterwards the parent router answers |
| RouterProvider.HandleNeedsFactory | src/Everest/App/Provider/RouterProvider.php:156-163 | a fresh provider always refuses to handle, and the one `factory` returns handles |
| RequestProvider.New | src/Everest/App/Provider/RequestProvider.php:46-55 | a new provider has no custom request |
| RequestProvider.FactoryProperty | src/Everest/App/Provider/RequestProvider.php:49 | the factory declares no dependencies |
| RequestProvider.Delegates | src/Everest/App/Provider/RequestProvider.php:52-54 | the delegate table is exactly `defineRequest` mapped to `setRequest` |
| RequestProvider.SetRequest | src/Everest/App/Provider/RequestProvider.php:62-65 | the given request, or none for null, replaces the custom request |
| RequestProvider.FactoryAsWritten | src/Everest/App/Provider/RequestProvider.php:74-77 | as written, a custom request is returned; without one the fallback class does not resolve and PHP raises an error |
| RequestProvider.Factory | src/Everest/App/Provider/RequestProvider.php:74-77 | the custom request if set, else the request built from the globals |
| RequestProvider.FactoryAsWrittenFailsWithoutRequest | src/Everest/App/Provider/RequestProvider.php:76 | as written, a provider without a custom request, or after `setRequest(null)`, fails; the intended factory yields the global request |
| RequestProvider.FactoryAgreesOnCustomRequest | src/Everest/App/Provider/RequestProvider.php:62-77 | with a custom request set, both factories return it; `setRequest(null)` restores the global request |
| SessionProvider.New | src/Everest/App/Provider/SessionProvider.php:29-32 | a new provider is idle |
| SessionProvider.GetFactory | src/Everest/App/Provider/SessionProvider.php:38-42 | `getFactory` marks the provider initialized, whatever its state, and the factory depends on `Options` only |
| SessionProvider.Build | src/Everest/App/Provider/SessionProvider.php:42-50 | the session is built from `session.options` (default empty array) when that is an array, else `TypeError`; it is started exactly when `session.auto_start` is not set or is truthy |
| SessionProvider.NoSessionSection | src/Everest/App/Provider/SessionProvider.php:43-47 | without a `session` section, the session gets no options of its own and is started |
| SessionProvider.ConfiguredSession | src/Everest/App/Provider/SessionProvider.php:43-49 | a configured section gives the session exactly its options and starts it as `auto_start` says |
| SessionProvider.NonArraySessionOptions | src/Everest/App/Provider/SessionProvider.php:43 | a `session.options` value that is not an array stops the factory with `TypeError` |
| Controller.SetContainer | src/Everest/App/Controller/AbstractContainerAwareController.php:25-28 | the new container replaces the old one |
| Controller.Read | src/Everest/App/Controller/AbstractContainerAwareController.php:46 | a name reads from the container last set; without one the read yields null; an unknown name fails in the container |
| Controller.Require | src/Everest/App/Controller/AbstractContainerAwareController.php:39-50 | no names throws `LogicException`; one name yields its value itself; several yield the list of their values in argument order, as long as the names; otherwise the first failing read's exception is thrown |
| TwigProvider.New | src/Everest/App/Provider/TwigProvider.php:48-55 | construction fails with `LogicException` exactly when Twig is unavailable, else all caches are empty |
| TwigProvider.FactoryProperty | src/Everest/App/Provider/TwigProvider.php:54 | the factory's only dependency is `Injector` |
| TwigProvider.SetOption | src/Everest/App/Provider/TwigProvider.php:97-101 | `setOption(k, v)` sets `k` to `v` and leaves every other option and cache unchanged |
| TwigProvider.SetOptionEachKeepsRest | src/Everest/App/Provider/TwigProvider.php:110-117 | setting options changes no loader, filter or extension |
| TwigProvider.SetOptionEachSets | src/Everest/App/Provider/TwigProvider.php:110-127 | after setting an array with unique keys, `getOptions` holds each of its keys with its value |
| TwigProvider.SetOptionEachKeepsOthers | src/Everest/App/Provider/TwigProvider.php:110-127 | options whose key the array lacks read through `getOptions` as before |
| TwigProvider.SetOptions | src/Everest/App/Provider/TwigProvider.php:110-127 | the loop equals `setOption` on each entry in order: `getOptions` then holds every key of the array with its value, and other options are unchanged |
| TwigProvider.SetLoader | src/Everest/App/Provider/TwigProvider.php:137-142 | a service name or loader replaces the loader and nothing else changes; `null` violates the parameter type (`TypeError`) |
| TwigProvider.GetLoader | src/Everest/App/Provider/TwigProvider.php:147-150 | the loader is returned; an unset loader violates the return type (`TypeError`) |
| TwigProvider.SetThenGetLoader | src/Everest/App/Provider/TwigProvider.php:137-150 | a loader once set is what `getLoader` returns |
| TwigProvider.AddFilter | src/Everest/App/Provider/TwigProvider.php:159-164 | the filter goes last and nothing else changes |
| TwigProvider.AddExtension | src/Everest/App/Provider/TwigProvider.php:183-188 | the extension goes last and nothing else changes |
| TwigProvider.RegistrationOrderPerKind | src/Everest/App/Provider/TwigProvider.php:159-198 | the getters return filters and extensions each in their own registration order, however the two kinds interleave |
| TwigProvider.Factory | src/Everest/App/Provider/TwigProvider.php:64-87 | no loader throws `LogicException`; a loader name is resolved through the injector and replaces the name; the environment gets the options, then every filter, then every extension, in registration order |

## Left out

- File loading in `Options::from`: `include`, `file_get_contents` and `json_decode` are file I/O. `Options.From` stops at `LoadFile`, and `App.WithOptions` takes the loader as a parameter.
- `is_readable` is a parameter of `Options.From`.
- Options.ObjectToArray: objects are modelled with public properties only. In PHP, `(array)` gives private and protected properties mangled keys (`"\0Class\0name"`, `"\0*\0name"`), and `property_exists` is true for them while reading them from outside throws `Error`. So `from` on an object with non-public properties (an `Options` instance, say) and a lookup that steps onto such a property are not modelled: the model would key them by their plain name.
- Options.From: a readable file's format is decided by the intended extension, the corrected half of the `Options.php:25` finding. The decision the source makes is `Options.FromAsWritten`, and the two differ only on paths without a dot.
- The PHP session runtime is not modelled. This covers `start`, `stop`, `destroy`, `ini_set`, `session_get_cookie_params`, `__toString` and `getIterator`. The cookie parameters are a parameter of `Session.New`, and `SessionProvider.Build` reports whether `start` would be called.
- The container and injector are not modelled: resolution, `boot`, `service`, `constant` and `getDependencyArray`.
  - `App` records registered providers and services as lists.
  - `App.ApplyConfigs` follows only the options entries of the configuration queue, not the effect of deferred delegate calls.
  - Injector lookups are function parameters.
  - A container read of an unknown name is the abstract `ContainerFailure`.
  - The container's refusal of registration after boot is the abstract `ContainerRefusal`, because its exception class is not visible.
- The parent `Everest\Http\Router` is not modelled: route matching, middleware and the parent's `handle`. The router provider only records what it hands to its parent, and the parent's `handle` is a function parameter.
- `App.php:14` imports `Everest\Http\Provider\RouterProvider`, which is a different class from this repository's `RouterProvider`. That other class is not part of this model. `App.RouterDelegatesNotRegistered` is about this repository's class.
- The `App` constructor wiring is not modelled: the global request, the root options and the router provider.
- `Response::send` in `run` is not modelled.
- Twig itself is not modelled. The environment is the record of what the provider gives it, and the type checks on filters, extensions and the injected loader are not modelled.
- `Alias::__callStatic` is not modelled, because it is reflective dynamic dispatch. `Alias/Session.php` and `DelegateProviderInterface.php` hold no logic.
- Floating-point values and resources are not modelled.
- PhpValues.Contains: `in_array`'s loose comparison is approximated by structural equality. The `switch` on the file extension compares strictly here, except that the empty string is refused as `case null` would refuse it.
- PhpValues.NextIndex: the rule is the one of PHP 8.3 and later, and overflow past `PHP_INT_MAX` is not modelled. PHP's memory of the next free index after an `unset` is not modelled either.
- App.MergeTables: `array_merge` renumbers integer keys. The model treats every delegate name as a string key, so delegate names that are integer strings are not modelled.
- Some repository tests expect behaviour the code does not have: a namespaced `merge`, `OptionsProvider::getFactory`, and `fromIniFile`/`fromJsonFile`. No property is drawn from those tests.
- `TwigProvider::getOptions`, `getFilters` and `getExtensions` return the provider's fields. They carry no contract of their own and are used in the contracts of the lemmas and the method about the setters.

## Findings

| source | as written | input that shows it | evidently intended | confidence | as-written member | corrected member |
|---|---|---|---|---|---|---|
| src/Everest/App/Provider/RequestProvider.php:76 | the fallback is `ServerRequest::fromGlobals()`, but the file imports `ServerRequests` (line 14), so `ServerRequest` resolves to a class in the provider's own namespace that does not exist | a provider on which `setRequest` was never called, or was called with null | use the global server request when no custom request is set | high; not executed | RequestProvider.FactoryAsWrittenFailsWithoutRequest | RequestProvider.Factory |
| src/Everest/App/Options.php:25 | `strrpos` returns `false`, not -1, when there is no dot, so the test `!== -1` always passes and the "extension" becomes everything after the first character | a readable file named `xphp`: it is taken to have extension `php` and would be included | a path without a dot has no extension and is refused with "No file extension specified" | high; not executed | Options.FromAsWrittenLoadsDotlessName | Options.FromDecidesByExtension |

=== FILE: alias.dfy ===
/** `Everest\App\Alias`: static access to the components of one app. The
    static properties shared by every alias class (the app and the component
    cache) become an explicit state passed in and out. */
module Alias {
  import opened Wrappers
  import opened PhpValues

  /** The app's components as `$app[$name]` reads them; a name the app cannot
      resolve makes its container throw. */
  type AppView = map<string, Value>

  /** The state shared by all alias classes: the bound app, if any, and the
      cache of components by name. */
  datatype AliasState = AliasState(app: Option<AppView>, components: map<string, Value>)

  /** An alias class, identified by the name its `getName` returns; `None`
      for a class that does not override `getName`. */
  datatype AliasClass = AliasClass(name: Option<string>)

  /** The state after a call and what the call returned or threw. */
  datatype Outcome<T> = Outcome(state: AliasState, result: Result<T>)

  /** The state before any alias is used. */
  function Initial(): (s: AliasState)
    ensures s.app.None? && s.components == map[]
  {
    AliasState(None, map[])
  }

  /** `reset($components, $app)`: each flag independently clears its part. */
  function Reset(s: AliasState, components: bool, app: bool): (r: AliasState)
    ensures r.components == if components then map[] else s.components
    ensures r.app == if app then None else s.app
  {
    AliasState(if app then None else s.app, if components then map[] else s.components)
  }

  /** `setApp($app)`: bind an app; the cache is kept. */
  function SetApp(s: AliasState, app: AppView): (r: AliasState)
    ensures r.app == Some(app) && r.components == s.components
  {
    s.(app := Some(app))
  }

  /** `static::getName()`. */
  function GetName(cls: AliasClass): (r: Result<string>)
    ensures cls.name.None? <==> r == Throw(LogicException)
    ensures cls.name.Some? ==> r == Ok(cls.name.value)
  {
    match cls.name
    case Some(n) => Ok(n)
    case None => Throw(LogicException)
  }

  /** Whether the cache holds a non-null component under `name` (`??`). */
  predicate Cached(s: AliasState, name: string) {
    name in s.components && s.components[name] != Null
  }

  /** `component()`: the cached component, or else the app's, which is then
      cached. Without an app, reading `null[$name]` yields null, which is
      cached too. */
  function Component(s: AliasState, cls: AliasClass): (r: Outcome<Value>)
    ensures cls.name.None? ==> r == Outcome(s, Throw(LogicException))
    ensures cls.name.Some? && Cached(s, cls.name.value) ==>
      r == Outcome(s, Ok(s.components[cls.name.value]))
    ensures cls.name.Some? && !Cached(s, cls.name.value) && s.app.None? ==>
      r == Outcome(s.(components := s.components[cls.name.value := Null]), Ok(Null))
    ensures cls.name.Some? && !Cached(s, cls.name.value) && s.app.Some? && cls.name.value in s.app.value ==>
      var v := s.app.value[cls.name.value];
      r == Outcome(s.(components := s.components[cls.name.value := v]), Ok(v))
    ensures cls.name.Some? && !Cached(s, cls.name.value) && s.app.Some? && cls.name.value !in s.app.value ==>
      r == Outcome(s, Throw(ContainerFailure))
  {
    match GetName(cls)
    case Throw(e) => Outcome(s, Throw(e))
    case Ok(name) =>
      if Cached(s, name) then Outcome(s, Ok(s.components[name]))
      else
        match s.app
        case None => Outcome(s.(components := s.components[name := Null]), Ok(Null))
        case Some(app) =>
          if name in app then Outcome(s.(components := s.components[name := app[name]]), Ok(app[name]))
          else Outcome(s, Throw(ContainerFailure))
  }

  /** `get_class` of an object. */
  function ClassOf(v: Value): Option<string> {
    if v.Obj? then Some(v.cls) else None
  }

  /** `swap($component)`: read the current component (caching it), refuse a
      component of another type, or an object of another class, and
      otherwise cache the new component under the alias's name. */
  function Swap(s: AliasState, cls: AliasClass, component: Value): (r: Outcome<()>)
    ensures r.result.Ok? ==> Component(s, cls).result.Ok?
    ensures r.result.Ok? ==>
      var current := Component(s, cls).result.value;
      TypeName(current) == TypeName(component) && ClassOf(current) == ClassOf(component)
    ensures r.result.Ok? ==>
      r.state == Component(s, cls).state.(components := Component(s, cls).state.components[cls.name.value := component])
    ensures r.result.Throw? ==> r.state == Component(s, cls).state
    ensures Component(s, cls).result.Throw? ==> r.result == Throw(Component(s, cls).result.exception)
    ensures
      (&& Component(s, cls).result.Ok?
       && TypeName(Component(s, cls).result.value) == TypeName(component)
       && ClassOf(Component(s, cls).result.value) == ClassOf(component))
      ==> r.result.Ok?
    ensures Component(s, cls).result.Ok? && TypeName(Component(s, cls).result.value) != TypeName(component) ==>
      r.result == Throw(InvalidArgumentException)
    ensures Component(s, cls).result.Ok? && ClassOf(Component(s, cls).result.value) != ClassOf(component) ==>
      r.result == Throw(InvalidArgumentException)
  {
    var read := Component(s, cls);
    match read.result
    case Throw(e) => Outcome(read.state, Throw(e))
    case Ok(current) =>
      if TypeName(component) != TypeName(current) then Outcome(read.state, Throw(InvalidArgumentException))
      else if current.Obj? && current.cls != component.cls then Outcome(read.state, Throw(InvalidArgumentException))
      else Outcome(read.state.(components := read.state.components[cls.name.value := component]), Ok(()))
  }

  /** After a successful swap to a non-null component, the alias returns that
      component. (A swap to null is cached as null, which `??` skips, so the
      next read goes back to the app.) */
  lemma SwapThenComponent(s: AliasState, cls: AliasClass, component: Value)
    requires Swap(s, cls, component).result.Ok?
    requires component != Null
    ensures Component(Swap(s, cls, component).state, cls).result == Ok(component)
  {
  }

  /** A swap through one alias leaves every other name's cached component
      alone, and so does a failed swap, apart from caching the component it
      read. */
  lemma SwapLeavesOtherNames(s: AliasState, cls: AliasClass, component: Value, other: string)
    requires cls.name.Some? && other != cls.name.value
    ensures var r := Swap(s, cls, component).state;
      (other in r.components <==> other in s.components)
      && (other in s.components ==> r.components[other] == s.components[other])
    ensures Swap(s, cls, component).state.app == s.app
  {
  }

  /** Once a non-null component is cached, the alias keeps returning it even
      when another app is bound, until the cache is reset. */
  lemma CachedComponentOutlivesApp(s: AliasState, cls: AliasClass, app: AppView)
    requires Component(s, cls).result.Ok? && Component(s, cls).result.value != Null
    ensures var s1 := Component(s, cls).state;
      Component(SetApp(s1, app), cls).result == Component(s, cls).result
    ensures var s1 := Component(s, cls).state;
      cls.name.Some? && cls.name.value in app ==>
        Component(SetApp(Reset(s1, true, false), app), cls).result == Ok(app[cls.name.value])
  {
  }

  /** An alias without a name fails on every access, whatever the state. */
  lemma UnnamedAliasFails(s: AliasState, component: Value)
    ensures Component(s, AliasClass(None)).result == Throw(LogicException)
    ensures Swap(s, AliasClass(None), component) == Outcome(s, Throw(LogicException))
  {
  }
}

=== FILE: app.dfy ===
/** `Everest\App\App`: the application container. On top of the container it
    keeps a table of delegates collected from providers; calling an unknown
    method on the app during configuration defers a call of the delegate of
    that name. The container's own resolution and boot are not part of this
    model beyond the queue of configuration entries they run. */
module App {
  import opened Wrappers
  import opened PhpValues
  import opened Framework
  import O = Options
  import OP = OptionsProvider
  import RP = RouterProvider
  import RQ = RequestProvider

  /** The container states `STATE_INITIAL` and booted. */
  datatype ContainerState = Initial | Booted

  /** What a configuration entry does when the container boots. */
  datatype ConfigAction =
    | AddOptions(options: O.Options)
    | CallDelegate(delegate: Callable, arguments: seq<Value>)

  /** A configuration entry: the services to inject, then the action. */
  datatype Config = Config(dependencies: seq<string>, action: ConfigAction)

  /** A provider's public `delegates` property, as `property_exists` and
      `array_merge` see it: missing, an array of callables by name, or some
      other value. */
  datatype DelegatesProperty = NoProperty | Table(table: map<string, Callable>) | NotAnArray

  /** A provider object handed to `provider`: its class and its `delegates`
      property. */
  datatype ProviderObject = ProviderObject(cls: string, delegates: DelegatesProperty)

  /** The app: the container state, the delegate table, the queue of
      configuration entries, and the providers and services registered with
      the container, in registration order. */
  datatype App = App(
    state: ContainerState,
    delegates: map<string, Callable>,
    configs: seq<Config>,
    providers: seq<(string, ProviderObject)>,
    services: seq<(string, Value)>)

  /** The app after a call, and the exception the call threw, if any. */
  datatype Outcome = Outcome(app: App, thrown: Option<Exception>)

  /** An app in the initial state with nothing registered. The constructor's
      own registrations are not part of this model. */
  function Empty(): (a: App)
    ensures a.state == Initial && a.delegates == map[] && a.configs == []
  {
    App(Initial, map[], [], [], [])
  }

  /** `array_merge` of two arrays with string keys: the later entry wins. */
  function MergeTables(first: map<string, Callable>, second: map<string, Callable>): (r: map<string, Callable>)
    ensures r.Keys == first.Keys + second.Keys
    ensures forall n :: n in second ==> r[n] == second[n]
    ensures forall n :: n in first && n !in second ==> r[n] == first[n]
  {
    first + second
  }

  /** `provider($name, $provider)`: register the provider with the container,
      then merge its `delegates` property, if it has one, into the table; a
      property that is not an array makes `array_merge` throw after the
      registration. After boot the container refuses the registration. */
  function Provider(app: App, name: string, provider: ProviderObject): (r: Outcome)
    ensures app.state != Initial ==> r == Outcome(app, Some(ContainerRefusal))
    ensures app.state == Initial ==> r.app.providers == app.providers + [(name, provider)]
    ensures r.app.state == app.state && r.app.configs == app.configs && r.app.services == app.services
    ensures app.state == Initial && provider.delegates.NoProperty? ==> r.thrown.None? && r.app.delegates == app.delegates
    ensures app.state == Initial && provider.delegates.Table? ==>
      && r.thrown.None?
      && r.app.delegates.Keys == app.delegates.Keys + provider.delegates.table.Keys
      && (forall n :: n in provider.delegates.table ==> r.app.delegates[n] == provider.delegates.table[n])
      && (forall n :: n in app.delegates && n !in provider.delegates.table ==> r.app.delegates[n] == app.delegates[n])
    ensures app.state == Initial && provider.delegates.NotAnArray? ==>
      r.thrown == Some(TypeError) && r.app.delegates == app.delegates
  {
    if app.state != Initial then Outcome(app, Some(ContainerRefusal))
    else
      var registered := app.(providers := app.providers + [(name, provider)]);
      match provider.delegates
      case NoProperty => Outcome(registered, None)
      case Table(t) => Outcome(registered.(delegates := MergeTables(app.delegates, t)), None)
      case NotAnArray => Outcome(registered, Some(TypeError))
  }

  /** `__call($name, $arguments)`: outside the initial state every call is
      refused; a known delegate is not run but queued, with its arguments, as
      one configuration entry without dependencies; anything else is an
      unknown method. PHP calls `__call` only for names that are not methods
      of the app or its container, so `provider`, `controller`, `options`,
      `run` and the container's own methods never arrive here. */
  function Call(app: App, name: string, arguments: seq<Value>): (r: Outcome)
    ensures app.state != Initial ==> r == Outcome(app, Some(RuntimeException))
    ensures app.state == Initial && name !in app.delegates ==> r == Outcome(app, Some(BadMethodCallException))
    ensures app.state == Initial && name in app.delegates ==>
      r.thrown.None? && r.app == app.(configs := app.configs + [Config([], CallDelegate(app.delegates[name], arguments))])
  {
    if app.state != Initial then Outcome(app, Some(RuntimeException))
    else if name in app.delegates then
      Outcome(app.(configs := app.configs + [Config([], CallDelegate(app.delegates[name], arguments))]), None)
    else Outcome(app, Some(BadMethodCallException))
  }

  /** `controller($name, $dependenciesAndClassname)`: a service named after
      the controller with `Controller` appended, which the container refuses
      after boot. */
  function Controller(app: App, name: string, dependenciesAndClassname: Value): (r: Outcome)
    ensures app.state != Initial ==> r == Outcome(app, Some(ContainerRefusal))
    ensures app.state == Initial ==>
      r.thrown.None? && r.app.services == app.services + [(name + "Controller", dependenciesAndClassname)]
    ensures r.app.state == app.state && r.app.delegates == app.delegates && r.app.configs == app.configs
    ensures r.app.providers == app.providers
  {
    if app.state != Initial then Outcome(app, Some(ContainerRefusal))
    else Outcome(app.(services := app.services + [(name + "Controller", dependenciesAndClassname)]), None)
  }

  /** `options($options)`: convert the source with `Options::from` at once
      (`load` stands for loading a readable file, which calls `from` again),
      then queue one configuration entry that adds the options to the options
      provider. A source `from` refuses throws and queues nothing; after boot
      the conversion still runs, and then the container refuses the entry. */
  function WithOptions(app: App, source: Value, readable: string -> bool,
                       load: (O.FileFormat, string) -> Result<O.Options>): (r: Outcome)
    ensures O.From(source, readable).Built? && app.state == Initial ==>
      r == Outcome(app.(configs := app.configs + [Config(["OptionsProvider"], AddOptions(O.From(source, readable).options))]), None)
    ensures O.From(source, readable).Built? && app.state != Initial ==> r == Outcome(app, Some(ContainerRefusal))
    ensures O.From(source, readable).Failed? ==> r == Outcome(app, Some(O.From(source, readable).exception))
    ensures var f := O.From(source, readable);
      f.LoadFile? && load(f.format, f.path).Ok? && app.state == Initial ==>
        r == Outcome(app.(configs := app.configs + [Config(["OptionsProvider"], AddOptions(load(f.format, f.path).value))]), None)
    ensures var f := O.From(source, readable);
      f.LoadFile? && load(f.format, f.path).Ok? && app.state != Initial ==> r == Outcome(app, Some(ContainerRefusal))
    ensures var f := O.From(source, readable);
      f.LoadFile? && load(f.format, f.path).Throw? ==> r == Outcome(app, Some(load(f.format, f.path).exception))
    ensures r.thrown.Some? ==> r.app == app
    ensures r.thrown.None? ==> app.state == Initial
    ensures r.thrown.None? ==> |r.app.configs| == |app.configs| + 1 && r.app.configs[..|app.configs|] == app.configs
    ensures r.app.delegates == app.delegates && r.app.state == app.state
  {
    var converted := match O.From(source, readable)
      case Built(o) => Ok(o)
      case LoadFile(format, path) => load(format, path)
      case Failed(e) => Throw(e);
    match converted
    case Ok(o) =>
      if app.state != Initial then Outcome(app, Some(ContainerRefusal))
      else
        var configs := app.configs + [Config(["OptionsProvider"], AddOptions(o))];
        assert configs[..|app.configs|] == app.configs;
        Outcome(app.(configs := configs), None)
    case Throw(e) => Outcome(app, Some(e))
  }

  /** The options provider after the queued configuration entries have run:
      each options entry adds its options; a delegate call acts on its own
      provider, which this model does not follow. */
  function ApplyConfigs(configs: seq<Config>, p: OP.OptionsProvider): OP.OptionsProvider
    decreases |configs|
  {
    if |configs| == 0 then p
    else
      var q := ApplyConfigs(configs[..|configs| - 1], p);
      match configs[|configs| - 1].action
      case AddOptions(o) => OP.Add(q, o)
      case CallDelegate(_, _) => q
  }

  /** The options a configuration entry carries to the options provider. */
  function Carried(c: Config): seq<O.Options> {
    match c.action
    case AddOptions(o) => [o]
    case CallDelegate(_, _) => []
  }

  /** The options the queued entries carry, in queue order. */
  function AddedOptions(configs: seq<Config>): seq<O.Options>
    decreases |configs|
  {
    if |configs| == 0 then [] else Carried(configs[0]) + AddedOptions(configs[1..])
  }

  /** An entry queued last carries its options last. */
  lemma {:induction false} AddedOptionsSnoc(configs: seq<Config>, c: Config)
    ensures AddedOptions(configs + [c]) == AddedOptions(configs) + Carried(c)
    decreases |configs|
  {
    if |configs| == 0 {
      assert configs + [c] == [c];
      assert [c][1..] == [];
    } else {
      assert (configs + [c])[0] == configs[0];
      assert (configs + [c])[1..] == configs[1..] + [c];
      AddedOptionsSnoc(configs[1..], c);
    }
  }

  /** The options queued by `options` calls reach the options provider in
      queue order, behind those it already had, and nothing is merged until
      the provider's factory runs. */
  lemma {:induction false} ApplyConfigsAddsInOrder(configs: seq<Config>, p: OP.OptionsProvider)
    ensures ApplyConfigs(configs, p) == p.(pending := p.pending + AddedOptions(configs))
    decreases |configs|
  {
    if |configs| == 0 {
      assert p.pending + [] == p.pending;
    } else {
      var n := |configs| - 1;
      var init := configs[..n];
      ApplyConfigsAddsInOrder(init, p);
      AddedOptionsSnoc(init, configs[n]);
      assert init + [configs[n]] == configs;
    }
  }

  /** Two `options` calls with arrays on a fresh app queue two entries, in
      call order. */
  lemma TwoOptionsQueued(a: O.Options, b: O.Options, readable: string -> bool,
                         load: (O.FileFormat, string) -> Result<O.Options>)
    ensures var first := WithOptions(Empty(), Arr(a.entries), readable, load);
      var second := WithOptions(first.app, Arr(b.entries), readable, load);
      second.thrown.None?
      && second.app.configs == [Config(["OptionsProvider"], AddOptions(a)), Config(["OptionsProvider"], AddOptions(b))]
  {
    assert O.From(Arr(a.entries), readable) == O.Built(a);
    assert O.From(Arr(b.entries), readable) == O.Built(b);
  }

  /** Two `options` calls on a fresh app: after boot, the options provider
      yields its initial options merged with the first, then the second. */
  lemma OptionsMergedInOrderAtBoot(a: O.Options, b: O.Options, p: OP.OptionsProvider, readable: string -> bool,
                                    load: (O.FileFormat, string) -> Result<O.Options>)
    requires p.pending == []
    ensures var first := WithOptions(Empty(), Arr(a.entries), readable, load);
      var second := WithOptions(first.app, Arr(b.entries), readable, load);
      second.thrown.None?
      && OP.Factory(ApplyConfigs(second.app.configs, p)).options == O.Merge(O.Merge(p.initial, a), b)
  {
    var first := WithOptions(Empty(), Arr(a.entries), readable, load);
    var second := WithOptions(first.app, Arr(b.entries), readable, load);
    TwoOptionsQueued(a, b, readable, load);
    var configs := second.app.configs;
    var c1 := configs[..1];
    assert c1 == [Config(["OptionsProvider"], AddOptions(a))];
    assert c1[..0] == [];
    var p1 := ApplyConfigs(c1, p);
    assert p1 == OP.Add(ApplyConfigs([], p), a);
    assert configs[..|configs| - 1] == c1;
    assert ApplyConfigs(configs, p) == OP.Add(p1, b);
    OP.FactoryAfterAdd(p, a);
    OP.FactoryAfterAdd(p1, b);
  }

  /** `$this->Router->handle($this->Request)` answered `null` (`None`): an
      internal server error response takes its place. */
  function RunResponse(routed: Option<Response>): (r: Response)
    ensures routed.Some? ==> r == routed.value
    ensures routed.None? ==> r == Response("Internal server error", 500)
  {
    routed.GetOr(Response("Internal server error", 500))
  }

  /** This repository's router provider, as `provider` sees it: it offers its
      delegates through `getDelegates()`, not through a `delegates`
      property. */
  function RouterProviderObject(): ProviderObject {
    ProviderObject("Everest\\App\\Provider\\RouterProvider", NoProperty)
  }

  /** The request provider, whose public `delegates` property names its one
      delegate. */
  function RequestProviderObject(): ProviderObject {
    ProviderObject("Everest\\App\\Provider\\RequestProvider", Table(RQ.Delegates()))
  }

  /** Registering the router provider adds no delegate: although it declares
      `get` among its delegates, `$app->get(...)` stays an unknown method. */
  lemma RouterDelegatesNotRegistered(app: App, arguments: seq<Value>)
    requires app.state == Initial && "get" !in app.delegates
    ensures "get" in RP.GetDelegates()
    ensures var registered := Provider(app, "Router", RouterProviderObject());
      registered.thrown.None?
      && registered.app.delegates == app.delegates
      && Call(registered.app, "get", arguments).thrown == Some(BadMethodCallException)
  {
    assert "get" in RP.DelegateNames;
  }

  /** Registering the request provider makes `defineRequest` a delegate call
      that, deferred, invokes the provider's `setRequest` with the given
      arguments. */
  lemma DefineRequestDeferred(app: App, arguments: seq<Value>)
    requires app.state == Initial
    ensures var registered := Provider(app, "Request", RequestProviderObject()).app;
      Call(registered, "defineRequest", arguments)
        == Outcome(registered.(configs := app.configs + [Config([], CallDelegate(Method("RequestProvider", "setRequest"), arguments))]), None)
  {
  }

  /** A delegate call changes only the queue, and only by one entry at its
      end; once booted, nothing is queued any more. */
  lemma CallQueuesAtMostOne(app: App, name: string, arguments: seq<Value>)
    ensures var r := Call(app, name, arguments);
      r.app.delegates == app.delegates && r.app.state == app.state
      && (r.thrown.None? <==> app.state == Initial && name in app.delegates)
      && (r.thrown.None? ==> r.app.configs[..|app.configs|] == app.configs && |r.app.configs| == |app.configs| + 1)
      && (r.thrown.Some? ==> r.app == app)
  {
    var r := Call(app, name, arguments);
    if r.thrown.None? {
      assert r.app.configs[..|app.configs|] == app.configs;
    }
  }
}

=== FILE: controller.dfy ===
/** `Everest\App\Controller\AbstractContainerAwareController`: a controller
    that reads its dependencies from the container it was given. */
module Controller {
  import opened Wrappers
  import opened PhpValues

  /** The container as `$this->container[$name]` reads it: the services it
      can resolve by name; a name it cannot resolve makes it throw. */
  type ContainerView = map<string, Value>

  /** The container last handed to `setContainer`, if any. */
  datatype Controller = Controller(container: Option<ContainerView>)

  /** `setContainer($container)`: the new container replaces the old one. */
  function SetContainer(c: Controller, container: ContainerView): (r: Controller)
    ensures r.container == Some(container)
  {
    Controller(Some(container))
  }

  /** `$this->container[$name]`: without a container, indexing null yields
      null; a container throws for a name it cannot resolve. */
  function Read(c: Controller, name: string): (r: Result<Value>)
    ensures c.container.None? ==> r == Ok(Null)
    ensures c.container.Some? && name in c.container.value ==> r == Ok(c.container.value[name])
    ensures c.container.Some? && name !in c.container.value ==> r == Throw(ContainerFailure)
  {
    match c.container
    case None => Ok(Null)
    case Some(container) => if name in container then Ok(container[name]) else Throw(ContainerFailure)
  }

  /** Whether every name reads without a failure. */
  predicate AllReadable(c: Controller, names: seq<string>) {
    forall i :: 0 <= i < |names| ==> Read(c, names[i]).Ok?
  }

  /** `require(...$names)`: no names is a logic error; one name yields its
      value itself; several yield the list of their values in argument order.
      `array_map` reads the names in order, so the first unreadable name's
      failure is the one thrown. */
  method Require(c: Controller, names: seq<string>) returns (r: Result<Value>)
    ensures |names| == 0 ==> r == Throw(LogicException)
    ensures |names| == 1 ==> r == Read(c, names[0])
    ensures |names| >= 2 && AllReadable(c, names) ==>
      && r.Ok? && r.value.Arr? && |r.value.entries| == |names|
      && forall i :: 0 <= i < |names| ==> Find(r.value.entries, IntKey(i)) == Some(Read(c, names[i]).value)
    ensures |names| >= 2 && AllReadable(c, names) ==>
      r == Ok(Arr(List(seq(|names|, i requires 0 <= i < |names| => Read(c, names[i]).value))))
    ensures |names| >= 2 && !AllReadable(c, names) ==>
      exists i :: 0 <= i < |names| && Read(c, names[i]).Throw?
        && r == Throw(Read(c, names[i]).exception)
        && forall j :: 0 <= j < i ==> Read(c, names[j]).Ok?
  {
    if |names| == 0 {
      return Throw(LogicException);
    }
    if |names| == 1 {
      return Read(c, names[0]);
    }
    var values: seq<Value> := [];
    var i := 0;
    while i < |names|
      invariant 0 <= i <= |names| && |values| == i
      invariant forall j :: 0 <= j < i ==> Read(c, names[j]) == Ok(values[j])
    {
      var read := Read(c, names[i]);
      if read.Throw? {
        return Throw(read.exception);
      }
      values := values + [read.value];
      i := i + 1;
    }
    forall j | 0 <= j < |names|
      ensures Find(List(values), IntKey(j)) == Some(Read(c, names[j]).value)
    {
      ListFind(values, j);
    }
    assert values == seq(|names|, i requires 0 <= i < |names| => Read(c, names[i]).value);
    return Ok(Arr(List(values)));
  }
}

=== FILE: framework.dfy ===
/** The few things the application code receives from the container and
    HTTP packages it builds on, reduced to what the application itself looks
    at. How those packages behave is not part of this model. */
module Framework {
  import opened PhpValues

  /** A PHP callable as the application hands it around: a method of a named
      provider (`[$this, 'name']`) or a closure, named for reference. */
  datatype Callable = Method(owner: string, name: string) | Closure(name: string)

  /** A factory definition as a `FactoryProviderInterface` returns it: the
      names of the services to inject, then the callable to inject them into. */
  datatype FactoryDefinition = FactoryDefinition(dependencies: seq<string>, factory: Callable)

  /** An HTTP response: the body and the status code. */
  datatype Response = Response(body: string, status: int)

  /** The request the HTTP package hands around, kept opaque. */
  type Request = Value
}

=== FILE: options.dfy ===
/** `Everest\App\Options`: a tree of configuration values, read by dotted
    paths and combined by a recursive merge. */
module Options {
  import opened Wrappers
  import opened PhpValues
  import PhpStrings

  /** An `Options` object: the PHP array it wraps. */
  datatype Options = Options(entries: seq<Entry>)

  // ---------------------------------------------------------------------
  // Path lookup: `$options('a.b.c', $default)`
  // ---------------------------------------------------------------------

  /** One segment of a path: an array descends into an entry that is set
      (present and not null); an object descends into a property that exists,
      whatever its value; anything else stops the walk. */
  function Step(v: Value, segment: string): (r: Option<Value>)
    ensures v.Arr? ==> (r.Some? <==> Isset(v.entries, KeyOf(segment)))
    ensures v.Arr? && r.Some? ==> Find(v.entries, KeyOf(segment)) == r && r.value != Null
    ensures v.Obj? ==> r == FindProp(v.props, segment)
    ensures !v.Arr? && !v.Obj? ==> r.None?
  {
    match v
    case Arr(es) => if Isset(es, KeyOf(segment)) then Find(es, KeyOf(segment)) else None
    case Obj(_, ps) => FindProp(ps, segment)
    case _ => None
  }

  /** The value reached by following the segments left to right, if every
      step succeeds. */
  function Walk(v: Value, segments: seq<string>): Option<Value>
    decreases |segments|
  {
    if |segments| == 0 then Some(v)
    else
      match Step(v, segments[0])
      case Some(w) => Walk(w, segments[1..])
      case None => None
  }

  /** The value at a dotted path below `v`. */
  function At(v: Value, path: string): Option<Value> {
    Walk(v, PhpStrings.Explode(path))
  }

  /** The value `$options($path, $default)` returns, or the exception it throws. */
  function Lookup(o: Options, path: string, default: Value): (r: Result<Value>)
    ensures At(Arr(o.entries), path).Some? ==> r == Ok(At(Arr(o.entries), path).value)
    ensures At(Arr(o.entries), path).None? && default != Null ==> r == Ok(default)
    ensures At(Arr(o.entries), path).None? && default == Null ==> r == Throw(InvalidArgumentException)
  {
    match At(Arr(o.entries), path)
    case Some(w) => Ok(w)
    case None => if default != Null then Ok(default) else Throw(InvalidArgumentException)
  }

  /** `__invoke` as written: a loop over the exploded path that returns the
      default (or throws) as soon as a segment cannot be followed. It computes
      exactly the segment walk `Lookup` is defined by. */
  method Invoke(o: Options, path: string, default: Value) returns (r: Result<Value>)
    ensures r == Lookup(o, path, default)
  {
    var segments := PhpStrings.Explode(path);
    var current := Arr(o.entries);
    var i := 0;
    while i < |segments|
      invariant 0 <= i <= |segments|
      invariant Walk(Arr(o.entries), segments) == Walk(current, segments[i..])
    {
      assert segments[i..][1..] == segments[i + 1..];
      match Step(current, segments[i])
      case Some(next) =>
        current := next;
        i := i + 1;
      case None =>
        if default != Null {
          return Ok(default);
        }
        return Throw(InvalidArgumentException);
    }
    return Ok(current);
  }

  /** A single segment is a single step. */
  lemma WalkOne(v: Value, segment: string)
    ensures Walk(v, [segment]) == Step(v, segment)
  {
    assert [segment][1..] == [];
    match Step(v, segment)
    case Some(w) => assert Walk(w, []) == Some(w);
    case None =>
  }

  /** Walking a concatenation of segment lists walks the first list, then the
      second from where the first ended. */
  lemma {:induction false} WalkConcat(v: Value, s1: seq<string>, s2: seq<string>)
    ensures Walk(v, s1 + s2) == match Walk(v, s1) case Some(w) => Walk(w, s2) case None => None
    decreases |s1|
  {
    if |s1| > 0 {
      assert (s1 + s2)[0] == s1[0];
      assert (s1 + s2)[1..] == s1[1..] + s2;
      match Step(v, s1[0])
      case Some(w) => WalkConcat(w, s1[1..], s2);
      case None =>
    } else {
      assert s1 + s2 == s2;
    }
  }

  /** The value at `p.q` is the value at `q` inside the value at `p`. */
  lemma AtDotted(v: Value, p: string, q: string)
    ensures At(v, p + "." + q) == match At(v, p) case Some(w) => At(w, q) case None => None
  {
    PhpStrings.ExplodeDotted(p, q);
    WalkConcat(v, PhpStrings.Explode(p), PhpStrings.Explode(q));
  }

  /** Looking up `p.q` is looking up `q` in the options array found at `p`;
      when nothing is found at `p`, `p.q` falls back to the default. */
  lemma LookupDotted(o: Options, p: string, q: string, default: Value)
    ensures At(Arr(o.entries), p).Some? && At(Arr(o.entries), p).value.Arr? ==>
      Lookup(o, p + "." + q, default) == Lookup(Options(At(Arr(o.entries), p).value.entries), q, default)
    ensures At(Arr(o.entries), p).None? ==>
      Lookup(o, p + "." + q, default) == Lookup(Options([]), "", default)
  {
    AtDotted(Arr(o.entries), p, q);
    assert At(Arr([]), "") == None by {
      assert PhpStrings.Explode("") == [""];
      assert !Isset([], KeyOf(""));
    }
  }

  /** A path without dots is a single array index: it is found exactly when
      that entry is set, so an entry holding `null` counts as missing. */
  lemma LookupSingleSegment(o: Options, name: string, default: Value)
    requires '.' !in name
    ensures Isset(o.entries, KeyOf(name)) ==> Lookup(o, name, default) == Ok(Find(o.entries, KeyOf(name)).value)
    ensures !Isset(o.entries, KeyOf(name)) && default != Null ==> Lookup(o, name, default) == Ok(default)
    ensures !Isset(o.entries, KeyOf(name)) && default == Null ==> Lookup(o, name, default) == Throw(InvalidArgumentException)
  {
    AtName(Arr(o.entries), name);
  }

  /** The default matters only when the path is missing: a found value is
      returned whatever the default. */
  lemma LookupIgnoresDefaultWhenFound(o: Options, path: string, d1: Value, d2: Value)
    requires Lookup(o, path, Null).Ok?
    ensures Lookup(o, path, d1) == Lookup(o, path, d2) == Lookup(o, path, Null)
  {
  }

  /** A path without dots addresses one step. */
  lemma AtName(v: Value, name: string)
    requires '.' !in name
    ensures At(v, name) == Step(v, name)
  {
    PhpStrings.ExplodeNoDot(name);
    WalkOne(v, name);
  }

  /** `p.q` below an array entry `p` holding an array is entry `q` of that
      array. */
  lemma LookupEntryPath(es: seq<Entry>, p: string, inner: seq<Entry>, q: string, default: Value)
    requires '.' !in p && '.' !in q
    requires Find(es, KeyOf(p)) == Some(Arr(inner))
    requires Isset(inner, KeyOf(q))
    ensures Lookup(Options(es), p + "." + q, default) == Ok(Find(inner, KeyOf(q)).value)
  {
    AtName(Arr(es), p);
    LookupDotted(Options(es), p, q, default);
    LookupSingleSegment(Options(inner), q, default);
  }

  /** `p.q` below an entry `p` that is not set falls back to the default. */
  lemma LookupUnderMissingEntry(es: seq<Entry>, p: string, q: string, default: Value)
    requires '.' !in p && !Isset(es, KeyOf(p)) && default != Null
    ensures Lookup(Options(es), p + "." + q, default) == Ok(default)
  {
    AtName(Arr(es), p);
    AtDotted(Arr(es), p, q);
  }

  /** `p.q` below an entry `p` holding an object is its property `q`, which
      is found even when it holds `null` (unlike an array entry), because
      `property_exists` ignores the value. */
  lemma LookupPropertyPath(o: Options, p: string, name: string, cls: string, props: seq<Prop>, default: Value)
    requires At(Arr(o.entries), p) == Some(Obj(cls, props))
    requires '.' !in name
    requires FindProp(props, name).Some?
    ensures Lookup(o, p + "." + name, default) == Ok(FindProp(props, name).value)
  {
    AtDotted(Arr(o.entries), p, name);
    AtName(Obj(cls, props), name);
  }

  // ---------------------------------------------------------------------
  // Recursive merge: `mergeRecursive` and `merge`
  // ---------------------------------------------------------------------

  /** `isset($merged[$k]) && is_array($merged[$k])`. */
  predicate IsArrayAt(a: seq<Entry>, k: Key) {
    Find(a, k).Some? && Find(a, k).value.Arr?
  }

  /** `mergeRecursive($old, $new)`: the entries of `upd` folded into `base`
      in order. */
  function MergeRecursive(base: seq<Entry>, upd: seq<Entry>): (r: seq<Entry>)
    ensures UniqueKeys(base) ==> UniqueKeys(r)
    ensures forall k :: HasKey(base, k) ==> HasKey(r, k)
    decreases upd, 0
  {
    if |upd| == 0 then base else MergeRecursive(MergeEntry(base, upd[0]), upd[1..])
  }

  /** One iteration of the loop in `mergeRecursive`: two arrays under the same
      key merge recursively; otherwise a numeric key appends the value unless
      it is already present anywhere in the array; a string key overwrites. */
  function MergeEntry(merged: seq<Entry>, e: Entry): (r: seq<Entry>)
    ensures UniqueKeys(merged) ==> UniqueKeys(r)
    ensures forall k :: HasKey(merged, k) ==> HasKey(r, k)
    decreases e, 1
  {
    if e.val.Arr? && IsArrayAt(merged, e.key) then
      Assign(merged, e.key, Arr(MergeRecursive(Find(merged, e.key).value.entries, e.val.entries)))
    else if IsNumericKey(e.key) then
      if Contains(merged, e.val) then merged else Append(merged, e.val)
    else
      Assign(merged, e.key, e.val)
  }

  /** `$this->merge($other)`: the receiver's array with `other`'s merged in. */
  function Merge(o: Options, other: Options): (r: Options)
    ensures UniqueKeys(o.entries) ==> UniqueKeys(r.entries)
    ensures forall k :: HasKey(o.entries, k) ==> HasKey(r.entries, k)
    ensures forall k :: !HasKey(other.entries, k) && (HasKey(o.entries, k) || k.StrKey?) ==>
      Find(r.entries, k) == Find(o.entries, k)
  {
    MergeKeepsUntouchedAll(o.entries, other.entries);
    Options(MergeRecursive(o.entries, other.entries))
  }

  /** Merging a scalar under a numeric key into a list adds it at the end
      unless the list already holds it. */
  lemma MergeEntryIntoList(vs: seq<Value>, e: Entry)
    requires IsNumericKey(e.key) && !e.val.Arr?
    ensures MergeEntry(List(vs), e) == if e.val in vs then List(vs) else List(vs + [e.val])
  {
    if e.val in vs {
      var i :| 0 <= i < |vs| && vs[i] == e.val;
      assert List(vs)[i].val == e.val;
    } else {
      ListAppend(vs, e.val);
    }
  }

  /** A merge step for another key leaves a key that is present, or any
      string key, as it was. */
  lemma MergeEntryOther(m: seq<Entry>, e: Entry, k: Key)
    requires e.key != k
    requires HasKey(m, k) || k.StrKey?
    ensures Find(MergeEntry(m, e), k) == Find(m, k)
  {
  }

  /** `MergeKeepsUntouched` for every key at once. */
  lemma MergeKeepsUntouchedAll(base: seq<Entry>, upd: seq<Entry>)
    ensures forall k :: !HasKey(upd, k) && (HasKey(base, k) || k.StrKey?) ==>
      Find(MergeRecursive(base, upd), k) == Find(base, k)
  {
    forall k | !HasKey(upd, k) && (HasKey(base, k) || k.StrKey?)
      ensures Find(MergeRecursive(base, upd), k) == Find(base, k)
    {
      MergeKeepsUntouched(base, upd, k);
    }
  }

  /** Keys the new options do not mention keep their old value (and string
      keys absent from both stay absent). */
  lemma {:induction false} MergeKeepsUntouched(base: seq<Entry>, upd: seq<Entry>, k: Key)
    requires !HasKey(upd, k)
    requires HasKey(base, k) || k.StrKey?
    ensures Find(MergeRecursive(base, upd), k) == Find(base, k)
    decreases |upd|
  {
    if |upd| > 0 {
      var m := MergeEntry(base, upd[0]);
      assert upd == [upd[0]] + upd[1..];
      FindCons(upd[0], upd[1..], k);
      MergeEntryOther(base, upd[0], k);
      MergeKeepsUntouched(m, upd[1..], k);
    }
  }

  /** What the merge leaves under a key the new options mention: the
      recursive merge of two arrays; otherwise the new value for a string key;
      and the old value, untouched, for a numeric key the old array has. */
  lemma {:induction false} MergeAtKey(base: seq<Entry>, upd: seq<Entry>, i: nat)
    requires UniqueKeys(upd) && i < |upd|
    ensures var k, v, r := upd[i].key, upd[i].val, MergeRecursive(base, upd);
      && (v.Arr? && IsArrayAt(base, k) ==>
            Find(r, k) == Some(Arr(MergeRecursive(Find(base, k).value.entries, v.entries))))
      && (!(v.Arr? && IsArrayAt(base, k)) && !IsNumericKey(k) ==> Find(r, k) == Some(v))
      && (!(v.Arr? && IsArrayAt(base, k)) && IsNumericKey(k) && HasKey(base, k) ==> Find(r, k) == Find(base, k))
    decreases |upd|
  {
    var k, v := upd[i].key, upd[i].val;
    var m := MergeEntry(base, upd[0]);
    TailKeys(upd);
    if i == 0 {
      if HasKey(m, k) || k.StrKey? {
        MergeKeepsUntouched(m, upd[1..], k);
      }
    } else {
      assert upd[1..][i - 1] == upd[i];
      assert upd[0].key != k;
      if HasKey(base, k) || k.StrKey? {
        MergeEntryOther(base, upd[0], k);
        MergeAtKey(m, upd[1..], i - 1);
      }
    }
  }

  /** Entries with numeric keys and non-array values, as in a PHP list of
      scalars. */
  predicate ScalarList(a: seq<Entry>) {
    forall i :: 0 <= i < |a| ==> IsNumericKey(a[i].key) && !a[i].val.Arr?
  }

  /** One merge step of a scalar under a numeric key: nothing changes when
      the value is already there, otherwise it is appended. */
  lemma MergeScalarStep(base: seq<Entry>, e: Entry)
    requires IsNumericKey(e.key) && !e.val.Arr?
    ensures MergeEntry(base, e) ==
      if Contains(base, e.val) then base else base + [Entry(IntKey(NextIndex(base)), e.val)]
  {
  }

  /** The tail of a list of scalars is one. */
  lemma ScalarListTail(upd: seq<Entry>)
    requires |upd| > 0 && ScalarList(upd)
    ensures ScalarList(upd[1..]) && IsNumericKey(upd[0].key) && !upd[0].val.Arr?
  {
    assert forall j :: 0 <= j < |upd| - 1 ==> upd[1..][j] == upd[j + 1];
  }

  /** Merging a list of scalars keeps the old entries, in front. */
  lemma {:induction false} MergeListPrefix(base: seq<Entry>, upd: seq<Entry>)
    requires ScalarList(upd)
    ensures base <= MergeRecursive(base, upd)
    decreases |upd|
  {
    if |upd| > 0 {
      ScalarListTail(upd);
      MergeScalarStep(base, upd[0]);
      MergeListPrefix(MergeEntry(base, upd[0]), upd[1..]);
    }
  }

  /** Merging a list of scalars holds exactly the values of either side. */
  lemma {:induction false} MergeListContains(base: seq<Entry>, upd: seq<Entry>, v: Value)
    requires ScalarList(upd)
    ensures Contains(MergeRecursive(base, upd), v) <==> Contains(base, v) || Contains(upd, v)
    decreases |upd|
  {
    if |upd| > 0 {
      var e := upd[0];
      var m := MergeEntry(base, e);
      ScalarListTail(upd);
      MergeScalarStep(base, e);
      if !Contains(base, e.val) {
        var x := Entry(IntKey(NextIndex(base)), e.val);
        assert m == base + [x];
        assert Contains(m, v) <==> Contains(base, v) || e.val == v by {
          if Contains(base, v) {
            var i :| 0 <= i < |base| && base[i].val == v;
            assert m[i] == base[i];
          }
          if Contains(m, v) && !Contains(base, v) {
            var i :| 0 <= i < |m| && m[i].val == v;
            assert i == |base|;
          }
          if e.val == v {
            assert m[|base|] == x;
          }
        }
      }
      MergeListContains(m, upd[1..], v);
    }
  }

  /** Merging a list of scalars into an array without repeated values adds
      no repeated value. */
  lemma {:induction false} MergeListDistinct(base: seq<Entry>, upd: seq<Entry>)
    requires ScalarList(upd) && DistinctValues(base)
    ensures DistinctValues(MergeRecursive(base, upd))
    decreases |upd|
  {
    if |upd| > 0 {
      var e := upd[0];
      var m := MergeEntry(base, e);
      ScalarListTail(upd);
      MergeScalarStep(base, e);
      assert DistinctValues(m);
      MergeListDistinct(m, upd[1..]);
    }
  }

  /** The values of an array, in order. */
  function Values(a: seq<Entry>): (r: seq<Value>)
    ensures |r| == |a| && forall i :: 0 <= i < |a| ==> r[i] == a[i].val
  {
    seq(|a|, i requires 0 <= i < |a| => a[i].val)
  }

  /** `vs` followed by each value of `xs` it does not hold yet, once, in the
      order of `xs`. */
  function AddMissing(vs: seq<Value>, xs: seq<Value>): seq<Value>
    decreases |xs|
  {
    if |xs| == 0 then vs else AddMissing(if xs[0] in vs then vs else vs + [xs[0]], xs[1..])
  }

  /** Merging a list of scalars into a list gives the list of the old values
      followed by the new values not already present. */
  lemma {:induction false} MergeIntoList(vs: seq<Value>, upd: seq<Entry>)
    requires ScalarList(upd)
    ensures MergeRecursive(List(vs), upd) == List(AddMissing(vs, Values(upd)))
    decreases |upd|
  {
    if |upd| > 0 {
      ScalarListTail(upd);
      MergeEntryIntoList(vs, upd[0]);
      var next := if upd[0].val in vs then vs else vs + [upd[0].val];
      MergeIntoList(next, upd[1..]);
      assert Values(upd)[1..] == Values(upd[1..]);
    }
  }

  /** Merging a list of scalars is a set union: the old entries stay as they
      are, in front, and a value is added only when it is not already there. */
  lemma MergeListUnion(base: seq<Entry>, upd: seq<Entry>)
    requires ScalarList(upd)
    ensures base <= MergeRecursive(base, upd)
    ensures forall v :: Contains(MergeRecursive(base, upd), v) <==> Contains(base, v) || Contains(upd, v)
    ensures DistinctValues(base) ==> DistinctValues(MergeRecursive(base, upd))
  {
    MergeListPrefix(base, upd);
    forall v ensures Contains(MergeRecursive(base, upd), v) <==> Contains(base, v) || Contains(upd, v) {
      MergeListContains(base, upd, v);
    }
    if DistinctValues(base) {
      MergeListDistinct(base, upd);
    }
  }

  // ---------------------------------------------------------------------
  // `Options::from`
  // ---------------------------------------------------------------------

  /** The two file formats `from` can load. */
  datatype FileFormat = PhpFile | JsonFile

  /** What `Options::from($source)` does: build the options, hand a readable
      file to the loader (which includes or decodes it and calls `from`
      again; not part of this model), or throw. */
  datatype FromOutcome =
    | Built(options: Options)
    | LoadFile(format: FileFormat, path: string)
    | Failed(exception: Exception)

  /** How the `switch` on the extension treats a type: `case null` also
      catches the empty string, because `switch` compares loosely. */
  function FormatOf(ext: Option<string>): (r: Result<FileFormat>)
    ensures r == Ok(PhpFile) <==> ext == Some("php")
    ensures r == Ok(JsonFile) <==> ext == Some("json")
    ensures r.Throw? ==> r.exception == InvalidArgumentException
  {
    match ext
    case Some(e) =>
      if e == "php" then Ok(PhpFile)
      else if e == "json" then Ok(JsonFile)
      else Throw(InvalidArgumentException)
    case None => Throw(InvalidArgumentException)
  }

  /** The extension as the source computes it: `strrpos` returns `false`, not
      -1, when there is no dot, so the test always passes and `false + 1`
      makes the "extension" everything after the first character. */
  function ExtensionAsWritten(path: string): string {
    var start := match PhpStrings.LastDot(path) case Some(p) => p + 1 case None => 1;
    PhpStrings.AsciiLower(if start <= |path| then path[start..] else "")
  }

  /** The extension as evidently intended: the lower-cased text after the
      last dot, or none when the path has no dot. */
  function Extension(path: string): (r: Option<string>)
    ensures r.None? <==> '.' !in path
  {
    match PhpStrings.LastDot(path)
    case Some(p) => Some(PhpStrings.AsciiLower(path[p + 1..]))
    case None => None
  }

  /** As written, a readable file without any dot whose name, minus its first
      character, reads "php" is loaded as PHP. */
  lemma ExtensionAsWrittenMisreadsDotlessName()
    ensures ExtensionAsWritten("xphp") == "php"
    ensures FormatOf(Some(ExtensionAsWritten("xphp"))) == Ok(PhpFile)
    ensures Extension("xphp") == None
    ensures FormatOf(Extension("xphp")) == Throw(InvalidArgumentException)
  {
    assert PhpStrings.LastDot("xphp") == None;
    assert "xphp"[1..] == "php";
  }

  /** With the intended extension, a path without a dot is never loaded, and
      a path is loaded as PHP or JSON exactly by its text after the last dot. */
  lemma ExtensionDecidesFormat(dir: string, name: string, ext: string)
    requires '.' !in ext
    ensures '.' !in name ==> FormatOf(Extension(name)).Throw?
    ensures FormatOf(Extension(dir + "." + ext)) == FormatOf(Some(PhpStrings.AsciiLower(ext)))
  {
    var path := dir + "." + ext;
    PhpStrings.LastDotBefore(dir, ext);
    assert path[|dir| + 1..] == ext;
  }

  /** `(array) $object`: properties become entries, names normalised as keys. */
  function ObjectToArray(props: seq<Prop>): (r: seq<Entry>)
    ensures |r| == |props|
    ensures forall i :: 0 <= i < |props| ==> r[i] == Entry(KeyOf(props[i].name), props[i].val)
  {
    if |props| == 0 then [] else [Entry(KeyOf(props[0].name), props[0].val)] + ObjectToArray(props[1..])
  }

  /** What `from` does with a readable file whose extension is `ext`: hand
      it to the loader in the format the extension names, or throw. */
  function FileOutcome(path: string, ext: Option<string>): FromOutcome {
    match FormatOf(ext)
    case Ok(format) => LoadFile(format, path)
    case Throw(e) => Failed(e)
  }

  /** `Options::from($source)` for a source other than a readable file path,
      which is handed to the loader; `readable` stands for `is_readable`. A
      readable file's format is decided by the intended extension, the text
      after its last dot. */
  function From(source: Value, readable: string -> bool): (r: FromOutcome)
    ensures r.Built? <==> source.Arr? || source.Obj?
    ensures source.Arr? ==> r == Built(Options(source.entries))
    ensures source.Str? && readable(source.s) ==> (r.LoadFile? <==> FormatOf(Extension(source.s)).Ok?)
    ensures source.Str? && readable(source.s) && FormatOf(Extension(source.s)).Throw? ==>
      r == Failed(InvalidArgumentException)
    ensures r.LoadFile? ==> source == Str(r.path) && readable(r.path)
    ensures r.LoadFile? ==> Ok(r.format) == FormatOf(Extension(r.path))
    ensures !source.Arr? && !source.Obj? && !(source.Str? && readable(source.s)) ==> r == Failed(InvalidArgumentException)
  {
    match source
    case Arr(es) => Built(Options(es))
    case Str(s) =>
      if readable(s) then FileOutcome(s, Extension(s))
      else Failed(InvalidArgumentException)
    case Obj(_, props) => Built(Options(ObjectToArray(props)))
    case _ => Failed(InvalidArgumentException)
  }

  /** `Options::from` as written: a readable file's format is decided by the
      extension the source computes; every other source is treated as in
      `From`. */
  function FromAsWritten(source: Value, readable: string -> bool): (r: FromOutcome)
    ensures source.Str? && readable(source.s) ==>
      (r.LoadFile? <==> FormatOf(Some(ExtensionAsWritten(source.s))).Ok?)
    ensures r.LoadFile? ==> source == Str(r.path) && Ok(r.format) == FormatOf(Some(ExtensionAsWritten(r.path)))
    ensures r != From(source, readable) ==> source.Str? && readable(source.s) && '.' !in source.s
  {
    if source.Str? && readable(source.s) then FileOutcome(source.s, Some(ExtensionAsWritten(source.s)))
    else From(source, readable)
  }

  /** As written, the readable dot-free file `xphp` is included as PHP; the
      intended conversion refuses it for lack of an extension. */
  lemma FromAsWrittenLoadsDotlessName(readable: string -> bool)
    requires readable("xphp")
    ensures FromAsWritten(Str("xphp"), readable) == LoadFile(PhpFile, "xphp")
    ensures From(Str("xphp"), readable) == Failed(InvalidArgumentException)
  {
    ExtensionAsWrittenMisreadsDotlessName();
  }

  /** A readable file `dir.ext` is loaded as PHP or JSON exactly when its
      lower-cased extension says so, and refused otherwise. */
  lemma FromDecidesByExtension(dir: string, ext: string, readable: string -> bool)
    requires '.' !in ext && readable(dir + "." + ext)
    ensures var path := dir + "." + ext;
      From(Str(path), readable) ==
        if PhpStrings.AsciiLower(ext) == "php" then LoadFile(PhpFile, path)
        else if PhpStrings.AsciiLower(ext) == "json" then LoadFile(JsonFile, path)
        else Failed(InvalidArgumentException)
  {
    ExtensionDecidesFormat(dir, dir, ext);
  }

  /** Options built from an object hold each property's value under the
      property's name. */
  lemma FromObjectKeepsProperties(cls: string, props: seq<Prop>, name: string, readable: string -> bool)
    requires forall i, j :: 0 <= i < j < |props| ==> props[i].name != props[j].name
    ensures From(Obj(cls, props), readable).Built?
    ensures Find(From(Obj(cls, props), readable).options.entries, KeyOf(name)) == FindProp(props, name)
  {
    var r := ObjectToArray(props);
    match FindProp(props, name)
    case Some(v) =>
      var i :| 0 <= i < |props| && props[i] == Prop(name, v);
      forall j | 0 <= j < i ensures r[j].key != KeyOf(name) {
        if r[j].key == KeyOf(name) {
          KeyOfInjective(props[j].name, name);
        }
      }
      IndexOfFirst(r, KeyOf(name), i);
    case None =>
      forall j | 0 <= j < |r| ensures r[j].key != KeyOf(name) {
        if r[j].key == KeyOf(name) {
          KeyOfInjective(props[j].name, name);
        }
      }
      IndexOfAbsent(r, KeyOf(name));
  }
}

=== FILE: options_examples.dfy ===
/** The behaviour the repository's Options tests expect, derived from the
    general lemmas about lookup and merging. */
module OptionsExamples {
  import opened Wrappers
  import opened PhpValues
  import opened Options

  /** `['a' => ['b' => 1, 'c' => 2], 'd' => 10, 'e' => [1, 2, 3]]` */
  function FirstOptions(): seq<Entry> {
    [Entry(StrKey("a"), Arr([Entry(StrKey("b"), Int(1)), Entry(StrKey("c"), Int(2))])),
     Entry(StrKey("d"), Int(10)),
     Entry(StrKey("e"), Arr(List([Int(1), Int(2), Int(3)])))]
  }

  /** `['a' => ['b' => 3], 'd' => 20, 'e' => [3, 4, 5]]` */
  function SecondOptions(): seq<Entry> {
    [Entry(StrKey("a"), Arr([Entry(StrKey("b"), Int(3))])),
     Entry(StrKey("d"), Int(20)),
     Entry(StrKey("e"), Arr(List([Int(3), Int(4), Int(5)])))]
  }

  lemma MergeSingle(base: seq<Entry>, e: Entry)
    ensures MergeRecursive(base, [e]) == MergeEntry(base, e)
  {
    assert [e][1..] == [];
  }

  /** A string key is overwritten and the others kept:
      `['b' => 1, 'c' => 2]` merged with `['b' => 3]` is `['b' => 3, 'c' => 2]`. */
  lemma OverwriteExample()
    ensures MergeRecursive([Entry(StrKey("b"), Int(1)), Entry(StrKey("c"), Int(2))], [Entry(StrKey("b"), Int(3))])
         == [Entry(StrKey("b"), Int(3)), Entry(StrKey("c"), Int(2))]
  {
    IdentifierKey("b");
    MergeSingle([Entry(StrKey("b"), Int(1)), Entry(StrKey("c"), Int(2))], Entry(StrKey("b"), Int(3)));
  }

  /** The list union of the example, for lists given by value. */
  lemma ListUnionOf(first: seq<Value>, second: seq<Value>)
    requires first == [Int(1), Int(2), Int(3)] && second == [Int(3), Int(4), Int(5)]
    ensures MergeRecursive(List(first), List(second)) == List([Int(1), Int(2), Int(3), Int(4), Int(5)])
  {
    assert ScalarList(List(second));
    assert Values(List(second)) == second;
    MergeIntoList(first, List(second));
    var v4 := first + [Int(4)];
    assert Int(3) in first && second[1..] == [Int(4), Int(5)];
    assert AddMissing(first, second) == AddMissing(first, [Int(4), Int(5)]);
    assert Int(4) !in first;
    assert AddMissing(first, [Int(4), Int(5)]) == AddMissing(v4, [Int(5)]);
    assert Int(5) !in v4;
    assert AddMissing(v4, [Int(5)]) == AddMissing(v4 + [Int(5)], []);
  }

  /** Lists of scalars merge as a union that keeps the first list's order:
      `[1, 2, 3]` merged with `[3, 4, 5]` is `[1, 2, 3, 4, 5]`. */
  lemma ListUnionExample()
    ensures MergeRecursive(List([Int(1), Int(2), Int(3)]), List([Int(3), Int(4), Int(5)]))
         == List([Int(1), Int(2), Int(3), Int(4), Int(5)])
  {
    ListUnionOf([Int(1), Int(2), Int(3)], [Int(3), Int(4), Int(5)]);
  }

  lemma MergedNested(base: seq<Entry>, upd: seq<Entry>)
    requires base == FirstOptions() && upd == SecondOptions()
    ensures Find(MergeRecursive(base, upd), StrKey("a"))
         == Some(Arr([Entry(StrKey("b"), Int(3)), Entry(StrKey("c"), Int(2))]))
  {
    IdentifierKey("a");
    assert UniqueKeys(upd);
    OverwriteExample();
    MergeAtKey(base, upd, 0);
  }

  lemma MergedScalar(base: seq<Entry>, upd: seq<Entry>)
    requires base == FirstOptions() && upd == SecondOptions()
    ensures Find(MergeRecursive(base, upd), StrKey("d")) == Some(Int(20))
  {
    IdentifierKey("d");
    assert UniqueKeys(upd);
    MergeAtKey(base, upd, 1);
  }

  lemma MergedList(base: seq<Entry>, upd: seq<Entry>)
    requires base == FirstOptions() && upd == SecondOptions()
    ensures Find(MergeRecursive(base, upd), StrKey("e"))
         == Some(Arr(List([Int(1), Int(2), Int(3), Int(4), Int(5)])))
  {
    var l1, l2 := [Int(1), Int(2), Int(3)], [Int(3), Int(4), Int(5)];
    assert UniqueKeys(upd);
    assert Find(base, StrKey("e")) == Some(Arr(List(l1))) by {
      IndexOfFirst(base, StrKey("e"), 2);
    }
    assert upd[2] == Entry(StrKey("e"), Arr(List(l2)));
    ListUnionOf(l1, l2);
    MergeAtKey(base, upd, 2);
  }

  /** The dotted paths the examples read, as their two segments. */
  lemma PathSplits()
    ensures "a" + "." + "b" == "a.b" && "a" + "." + "c" == "a.c"
    ensures "c" + "." + "d" == "c.d" && "some" + "." + "path" == "some.path"
  {
  }

  lemma MergedLookups(r: seq<Entry>)
    requires Find(r, StrKey("a")) == Some(Arr([Entry(StrKey("b"), Int(3)), Entry(StrKey("c"), Int(2))]))
    requires Find(r, StrKey("d")) == Some(Int(20))
    requires Find(r, StrKey("e")) == Some(Arr(List([Int(1), Int(2), Int(3), Int(4), Int(5)])))
    ensures Lookup(Options(r), "a.b", Null) == Ok(Int(3))
    ensures Lookup(Options(r), "a.c", Null) == Ok(Int(2))
    ensures Lookup(Options(r), "d", Null) == Ok(Int(20))
    ensures Lookup(Options(r), "e", Null) == Ok(Arr(List([Int(1), Int(2), Int(3), Int(4), Int(5)])))
  {
    var inner := [Entry(StrKey("b"), Int(3)), Entry(StrKey("c"), Int(2))];
    PathSplits();
    IdentifierKey("a");
    IdentifierKey("b");
    IdentifierKey("c");
    IdentifierKey("d");
    IdentifierKey("e");
    LookupEntryPath(r, "a", inner, "b", Null);
    LookupEntryPath(r, "a", inner, "c", Null);
    LookupSingleSegment(Options(r), "d", Null);
    LookupSingleSegment(Options(r), "e", Null);
  }

  /** The merge test: nested arrays merge key by key, scalars are replaced
      and lists are united. */
  lemma MergeExample()
    ensures var m := Merge(Options(FirstOptions()), Options(SecondOptions()));
      && Lookup(m, "a.b", Null) == Ok(Int(3))
      && Lookup(m, "a.c", Null) == Ok(Int(2))
      && Lookup(m, "d", Null) == Ok(Int(20))
      && Lookup(m, "e", Null) == Ok(Arr(List([Int(1), Int(2), Int(3), Int(4), Int(5)])))
  {
    MergedNested(FirstOptions(), SecondOptions());
    MergedScalar(FirstOptions(), SecondOptions());
    MergedList(FirstOptions(), SecondOptions());
    MergedLookups(MergeRecursive(FirstOptions(), SecondOptions()));
  }

  /** `['a' => ['b' => 1], 'c' => $obj]` with `$obj->d = 20`. */
  function AccessOptions(): Options {
    Options([Entry(StrKey("a"), Arr([Entry(StrKey("b"), Int(1))])),
             Entry(StrKey("c"), Obj("stdClass", [Prop("d", Int(20))]))])
  }

  /** The access test: a path descends through arrays and objects alike. */
  lemma AccessExample()
    ensures Lookup(AccessOptions(), "a", Null) == Ok(Arr([Entry(StrKey("b"), Int(1))]))
    ensures Lookup(AccessOptions(), "a.b", Null) == Ok(Int(1))
    ensures Lookup(AccessOptions(), "c.d", Null) == Ok(Int(20))
  {
    var o := AccessOptions();
    PathSplits();
    IdentifierKey("a");
    IdentifierKey("b");
    IdentifierKey("c");
    LookupSingleSegment(o, "a", Null);
    LookupEntryPath(o.entries, "a", [Entry(StrKey("b"), Int(1))], "b", Null);
    AtName(Arr(o.entries), "c");
    LookupPropertyPath(o, "c", "d", "stdClass", [Prop("d", Int(20))], Null);
  }

  /** The default test: a path into empty options yields the default. */
  lemma DefaultExample()
    ensures Lookup(Options([]), "some.path", Str("foo")) == Ok(Str("foo"))
  {
    PathSplits();
    IdentifierKey("some");
    AtName(Arr([]), "some");
    LookupDotted(Options([]), "some", "path", Str("foo"));
  }
}

=== FILE: options_provider.dfy ===
/** `Everest\App\Provider\OptionsProvider`: collects options during
    configuration and folds them into the initial options on demand. */
module OptionsProvider {
  import opened Wrappers
  import opened PhpValues
  import O = Options

  /** The initial options object and the options added since, in call order. */
  datatype OptionsProvider = OptionsProvider(initial: O.Options, pending: seq<O.Options>)

  /** `new OptionsProvider($initialOptions)`: an object is always truthy, so
      any given options are kept; without them the initial options are empty. */
  function New(initialOptions: Option<O.Options>): (p: OptionsProvider)
    ensures p.pending == []
    ensures initialOptions.Some? ==> p.initial == initialOptions.value
    ensures initialOptions.None? ==> p.initial.entries == []
  {
    OptionsProvider(initialOptions.GetOr(O.Options([])), [])
  }

  /** `add($options)`: queue the options behind the earlier ones. */
  function Add(p: OptionsProvider, options: O.Options): (r: OptionsProvider)
    ensures r.initial == p.initial
    ensures r.pending == p.pending + [options]
  {
    p.(pending := p.pending + [options])
  }

  /** `array_reduce` with `merge`: the options merged in order into `start`. */
  function MergeAll(start: O.Options, options: seq<O.Options>): O.Options
    decreases |options|
  {
    if |options| == 0 then start else MergeAll(O.Merge(start, options[0]), options[1..])
  }

  /** What `factory()` yields, together with the provider afterwards. */
  datatype Produced = Produced(provider: OptionsProvider, options: O.Options)

  /** `factory()`. `merge` updates its receiver and returns it, so the fold
      accumulates into the initial options object itself: afterwards the
      provider's initial options are the result, and a second call merges the
      pending options once more on top of it. */
  function Factory(p: OptionsProvider): (r: Produced)
    ensures p.pending == [] ==> r.options == p.initial
    ensures r.provider.initial == r.options
    ensures r.provider.pending == p.pending
  {
    var result := MergeAll(p.initial, p.pending);
    Produced(p.(initial := result), result)
  }

  /** Folding over one more element merges it last. */
  lemma {:induction false} MergeAllSnoc(start: O.Options, options: seq<O.Options>, last: O.Options)
    ensures MergeAll(start, options + [last]) == O.Merge(MergeAll(start, options), last)
    decreases |options|
  {
    if |options| == 0 {
      assert options + [last] == [last];
      assert [last][1..] == [];
    } else {
      assert (options + [last])[1..] == options[1..] + [last];
      MergeAllSnoc(O.Merge(start, options[0]), options[1..], last);
    }
  }

  /** The result after an `add` is the earlier result with the new options
      merged in, so adding is a left fold in call order. */
  lemma FactoryAfterAdd(p: OptionsProvider, options: O.Options)
    ensures Factory(Add(p, options)).options == O.Merge(Factory(p).options, options)
  {
    MergeAllSnoc(p.initial, p.pending, options);
  }

  /** The options added last win on a string key they set to a value that is
      not merged recursively. */
  lemma LaterAdditionWins(p: OptionsProvider, options: O.Options, i: nat)
    requires UniqueKeys(options.entries) && i < |options.entries|
    requires !IsNumericKey(options.entries[i].key)
    requires !(options.entries[i].val.Arr? && O.IsArrayAt(Factory(p).options.entries, options.entries[i].key))
    ensures Find(Factory(Add(p, options)).options.entries, options.entries[i].key) == Some(options.entries[i].val)
  {
    FactoryAfterAdd(p, options);
    O.MergeAtKey(Factory(p).options.entries, options.entries, i);
  }

  /** A key of the initial options that no added options mention keeps its
      initial value. */
  lemma {:induction false} UntouchedKeySurvives(start: O.Options, options: seq<O.Options>, k: Key)
    requires HasKey(start.entries, k)
    requires forall j :: 0 <= j < |options| ==> !HasKey(options[j].entries, k)
    ensures Find(MergeAll(start, options).entries, k) == Find(start.entries, k)
    decreases |options|
  {
    if |options| > 0 {
      O.MergeKeepsUntouched(start.entries, options[0].entries, k);
      UntouchedKeySurvives(O.Merge(start, options[0]), options[1..], k);
    }
  }
}

=== FILE: php_strings.dfy ===
/** The pieces of PHP's string semantics the application code leans on:
    integer-like array keys, `is_numeric`, `strtolower`, `explode('.')`
    and the last-dot search behind a file extension. */
module PhpStrings {
  import opened Wrappers

  /** PHP_INT_MIN and PHP_INT_MAX on a 64-bit build. */
  const PhpIntMin: int := -0x8000_0000_0000_0000
  const PhpIntMax: int := 0x7FFF_FFFF_FFFF_FFFF

  predicate IsDigit(c: char) {
    '0' <= c <= '9'
  }

  predicate AllDigits(s: string) {
    forall i :: 0 <= i < |s| ==> IsDigit(s[i])
  }

  function DigitValue(c: char): nat
    requires IsDigit(c)
  {
    (c - '0') as nat
  }

  function DigitChar(d: nat): (c: char)
    requires d < 10
    ensures IsDigit(c) && DigitValue(c) == d
  {
    ('0' as int + d) as char
  }

  /** The number a string of decimal digits denotes, read left to right. */
  function DigitsValue(s: string): nat
    requires AllDigits(s)
    decreases |s|
  {
    if |s| == 0 then 0 else DigitsValue(s[..|s| - 1]) * 10 + DigitValue(s[|s| - 1])
  }

  /** The decimal rendering of a natural number, without leading zeros. */
  function Digits(n: nat): (s: string)
    ensures 1 <= |s| && AllDigits(s)
    ensures s[0] == '0' <==> n == 0
    ensures n == 0 ==> s == "0"
  {
    if n < 10 then [DigitChar(n)] else Digits(n / 10) + [DigitChar(n % 10)]
  }

  /** How PHP prints an integer (and so how it names an integer array key). */
  function IntString(n: int): string {
    if n < 0 then "-" + Digits(-n) else Digits(n)
  }

  /** The integer a string array key is converted to, if any: PHP turns a key
      that is a decimal integer literal in canonical form ("0", or an optional
      '-' followed by digits without a leading zero) and within the 64-bit
      range into an integer key; every other string stays a string key. */
  function CanonicalInt(s: string): Option<int> {
    if s == "0" then Some(0)
    else if 2 <= |s| && s[0] == '-' && '1' <= s[1] <= '9' && AllDigits(s[1..])
            && DigitsValue(s[1..]) <= -PhpIntMin then
      Some(-(DigitsValue(s[1..]) as int))
    else if 1 <= |s| && '1' <= s[0] <= '9' && AllDigits(s) && DigitsValue(s) <= PhpIntMax then
      Some(DigitsValue(s))
    else None
  }

  lemma {:induction false} DigitsRoundTrip(n: nat)
    ensures DigitsValue(Digits(n)) == n
    decreases n
  {
    if n >= 10 {
      var s := Digits(n);
      assert s[..|s| - 1] == Digits(n / 10);
      DigitsRoundTrip(n / 10);
    }
  }

  /** A digit string without a leading zero denotes at least 1 unless it is empty. */
  lemma {:induction false} DigitsValuePositive(s: string)
    requires 1 <= |s| && AllDigits(s) && s[0] != '0'
    ensures DigitsValue(s) >= 1
    decreases |s|
  {
    if |s| > 1 {
      DigitsValuePositive(s[..|s| - 1]);
    }
  }

  lemma {:induction false} DigitsOfValue(s: string)
    requires 1 <= |s| && AllDigits(s) && s[0] != '0'
    ensures Digits(DigitsValue(s)) == s
    decreases |s|
  {
    var n := DigitsValue(s);
    if |s| == 1 {
      assert s[..|s| - 1] == [];
      assert DigitsValue(s[..|s| - 1]) == 0;
      assert n == DigitValue(s[0]);
      assert DigitChar(n) == s[0];
    } else {
      var t := s[..|s| - 1];
      DigitsValuePositive(t);
      DigitsOfValue(t);
      assert n / 10 == DigitsValue(t);
      assert n % 10 == DigitValue(s[|s| - 1]);
      assert s == t + [s[|s| - 1]];
    }
  }

  /** Every integer in PHP's range, printed, reads back as an integer key. */
  lemma CanonicalIntOfIntString(n: int)
    requires PhpIntMin <= n <= PhpIntMax
    ensures CanonicalInt(IntString(n)) == Some(n)
  {
    var s := IntString(n);
    if n < 0 {
      assert s[1..] == Digits(-n);
      DigitsRoundTrip(-n);
    } else {
      DigitsRoundTrip(n);
    }
  }

  /** Conversely, a string is converted to an integer key only when it is
      exactly how PHP prints that integer. */
  lemma CanonicalIntIsIntString(s: string)
    requires CanonicalInt(s).Some?
    ensures IntString(CanonicalInt(s).value) == s
  {
    if s == "0" {
    } else if 2 <= |s| && s[0] == '-' && '1' <= s[1] <= '9' && AllDigits(s[1..])
              && DigitsValue(s[1..]) <= -PhpIntMin {
      DigitsValuePositive(s[1..]);
      DigitsOfValue(s[1..]);
      assert s == "-" + s[1..];
    } else {
      DigitsOfValue(s);
    }
  }

  /** The white-space characters PHP allows around a numeric string. */
  predicate IsSpace(c: char) {
    c == ' ' || c == '\t' || c == '\n' || c == '\r' || c == 11 as char || c == 12 as char
  }

  /** The first position at or after `i` that is not white space. */
  function SkipSpaces(s: string, i: nat): (j: nat)
    requires i <= |s|
    ensures i <= j <= |s|
    ensures forall k :: i <= k < j ==> IsSpace(s[k])
    ensures j < |s| ==> !IsSpace(s[j])
    decreases |s| - i
  {
    if i < |s| && IsSpace(s[i]) then SkipSpaces(s, i + 1) else i
  }

  /** The first position at or after `i` that is not a decimal digit. */
  function SkipDigits(s: string, i: nat): (j: nat)
    requires i <= |s|
    ensures i <= j <= |s|
    ensures forall k :: i <= k < j ==> IsDigit(s[k])
    ensures j < |s| ==> !IsDigit(s[j])
    decreases |s| - i
  {
    if i < |s| && IsDigit(s[i]) then SkipDigits(s, i + 1) else i
  }

  /** Where an optional exponent `[eE][+-]?digits` starting at `i` ends
      (at `i` itself when there is no complete exponent). */
  function SkipExponent(s: string, i: nat): (j: nat)
    requires i <= |s|
    ensures i <= j <= |s|
  {
    if i < |s| && (s[i] == 'e' || s[i] == 'E') then
      var k := if i + 1 < |s| && (s[i + 1] == '+' || s[i + 1] == '-') then i + 2 else i + 1;
      var e := SkipDigits(s, k);
      if e > k then e else i
    else i
  }

  /** PHP 8's `is_numeric` on a string: optional leading white space, an
      optional sign, digits with an optional fraction (at least one digit in
      all), an optional exponent and optional trailing white space. */
  predicate IsNumericString(s: string) {
    var i0 := SkipSpaces(s, 0);
    var i1 := if i0 < |s| && (s[i0] == '+' || s[i0] == '-') then i0 + 1 else i0;
    var i2 := SkipDigits(s, i1);
    var i3 := if i2 < |s| && s[i2] == '.' then SkipDigits(s, i2 + 1) else i2;
    var mantissaDigits := (i2 - i1) + (if i3 > i2 then i3 - i2 - 1 else 0);
    mantissaDigits > 0 && SkipSpaces(s, SkipExponent(s, i3)) == |s|
  }

  /** PHP 8's `strtolower`, which maps only ASCII letters. */
  function AsciiLower(s: string): (r: string)
    ensures |r| == |s|
    ensures forall i :: 0 <= i < |s| ==> r[i] == (if 'A' <= s[i] <= 'Z' then (s[i] as int + 32) as char else s[i])
  {
    seq(|s|, i requires 0 <= i < |s| => if 'A' <= s[i] <= 'Z' then (s[i] as int + 32) as char else s[i])
  }

  /** `explode('.', s)`: the pieces between dots, always at least one. */
  function Explode(s: string): (parts: seq<string>)
    ensures 1 <= |parts|
    ensures forall i :: 0 <= i < |parts| ==> '.' !in parts[i]
  {
    if |s| == 0 then [""]
    else if s[0] == '.' then [""] + Explode(s[1..])
    else
      var rest := Explode(s[1..]);
      [[s[0]] + rest[0]] + rest[1..]
  }

  /** `implode('.', parts)`, the inverse of `Explode`. */
  function Join(parts: seq<string>): string
    requires 1 <= |parts|
  {
    if |parts| == 1 then parts[0] else parts[0] + "." + Join(parts[1..])
  }

  lemma {:induction false} JoinExplode(s: string)
    ensures Join(Explode(s)) == s
  {
    if |s| == 0 {
    } else if s[0] == '.' {
      JoinExplode(s[1..]);
      assert s == "." + s[1..];
    } else {
      var rest := Explode(s[1..]);
      var parts := Explode(s);
      assert parts == [[s[0]] + rest[0]] + rest[1..];
      JoinExplode(s[1..]);
      assert s == [s[0]] + s[1..];
      if |rest| == 1 {
        assert parts == [[s[0]] + rest[0]];
      } else {
        assert parts[0] == [s[0]] + rest[0];
        assert parts[1..] == rest[1..];
        assert Join(parts) == parts[0] + "." + Join(rest[1..]);
        assert s[1..] == rest[0] + "." + Join(rest[1..]);
      }
    }
  }

  /** A piece without dots explodes to itself. */
  lemma {:induction false} ExplodeNoDot(p: string)
    requires '.' !in p
    ensures Explode(p) == [p]
  {
    if |p| > 0 {
      assert '.' !in p[1..] by {
        forall i | 0 <= i < |p[1..]| ensures p[1..][i] != '.' {
          assert p[1..][i] == p[i + 1];
        }
      }
      ExplodeNoDot(p[1..]);
      assert [p[0]] + p[1..] == p;
    }
  }

  lemma {:induction false} ExplodeJoin(parts: seq<string>)
    requires 1 <= |parts|
    requires forall i :: 0 <= i < |parts| ==> '.' !in parts[i]
    ensures Explode(Join(parts)) == parts
    decreases |parts|
  {
    ExplodeNoDot(parts[0]);
    if |parts| > 1 {
      ExplodeDotted(parts[0], Join(parts[1..]));
      ExplodeJoin(parts[1..]);
      assert parts == [parts[0]] + parts[1..];
    }
  }

  /** Exploding a dotted path `p.q` yields the pieces of `p` followed by the
      pieces of `q`. */
  lemma {:induction false} ExplodeDotted(p: string, q: string)
    ensures Explode(p + "." + q) == Explode(p) + Explode(q)
  {
    if |p| == 0 {
      assert p + "." + q == "." + q;
      assert ("." + q)[1..] == q;
    } else {
      var s := p + "." + q;
      assert s[0] == p[0];
      assert s[1..] == p[1..] + "." + q;
      ExplodeDotted(p[1..], q);
    }
  }

  /** The position of the last '.' in `s`, as `strrpos($s, '.')` reports it
      (`None` standing for PHP's `false`). */
  function LastDot(s: string): (r: Option<nat>)
    ensures r.Some? ==> r.value < |s| && s[r.value] == '.' && '.' !in s[r.value + 1..]
    ensures r.None? ==> '.' !in s
  {
    if |s| == 0 then None
    else if s[|s| - 1] == '.' then Some(|s| - 1)
    else
      var r := LastDot(s[..|s| - 1]);
      assert s == s[..|s| - 1] + [s[|s| - 1]];
      r
  }

  /** The last dot of `a.b`, when `b` has none, is the one before `b`. */
  lemma {:induction false} LastDotBefore(a: string, b: string)
    requires '.' !in b
    ensures LastDot(a + "." + b) == Some(|a|)
    decreases |b|
  {
    var s := a + "." + b;
    if |b| > 0 {
      var b' := b[..|b| - 1];
      assert s[|s| - 1] == b[|b| - 1];
      assert s[..|s| - 1] == a + "." + b';
      assert '.' !in b' by {
        forall i | 0 <= i < |b'| ensures b'[i] != '.' {
          assert b'[i] == b[i];
        }
      }
      LastDotBefore(a, b');
    }
  }
}

=== FILE: php_values.dfy ===
/** PHP values as the application code sees them, and the PHP array
    operations it uses (`$a[$k]`, `isset`, `$a[$k] = $v`, `$a[] = $v`,
    `unset`, `in_array`, `array_merge`, `gettype`, truthiness).

    A PHP array is an ordered association list of `Entry`s. Keys are unique
    in every array PHP builds (`UniqueKeys`); lemmas that depend on it say so. */
module PhpValues {
  import opened Wrappers
  import PhpStrings

  datatype Key = IntKey(i: int) | StrKey(s: string)

  /** A PHP value. Floating point numbers and resources are not modelled; an
      object is its class name and its (public) properties in declaration order. */
  datatype Value =
    | Null
    | Bool(b: bool)
    | Int(i: int)
    | Str(s: string)
    | Arr(entries: seq<Entry>)
    | Obj(cls: string, props: seq<Prop>)

  datatype Entry = Entry(key: Key, val: Value)

  datatype Prop = Prop(name: string, val: Value)

  /** The key PHP stores for the string `s` used as an array index:
      integer-like strings become integer keys. */
  function KeyOf(s: string): Key {
    match PhpStrings.CanonicalInt(s)
    case Some(n) => IntKey(n)
    case None => StrKey(s)
  }

  /** `$a["5"]` and `$a[5]` address the same slot. */
  lemma KeyOfIntString(n: int)
    requires PhpStrings.PhpIntMin <= n <= PhpStrings.PhpIntMax
    ensures KeyOf(PhpStrings.IntString(n)) == IntKey(n)
  {
    PhpStrings.CanonicalIntOfIntString(n);
  }

  /** A string names an integer key only when it is that integer printed. */
  lemma KeyOfIntKey(s: string)
    requires KeyOf(s).IntKey?
    ensures PhpStrings.IntString(KeyOf(s).i) == s
  {
    PhpStrings.CanonicalIntIsIntString(s);
  }

  /** Distinct strings address distinct slots. */
  lemma KeyOfInjective(s: string, t: string)
    requires KeyOf(s) == KeyOf(t)
    ensures s == t
  {
    if KeyOf(s).IntKey? {
      KeyOfIntKey(s);
      KeyOfIntKey(t);
    }
  }

  /** `is_numeric($key)` for an array key as `foreach` hands it out. */
  predicate IsNumericKey(k: Key) {
    k.IntKey? || PhpStrings.IsNumericString(k.s)
  }

  /** A name that starts like an identifier is a string key and not numeric. */
  lemma IdentifierKey(s: string)
    requires |s| >= 1 && ('a' <= s[0] <= 'z' || 'A' <= s[0] <= 'Z' || s[0] == '_')
    ensures KeyOf(s) == StrKey(s)
    ensures !IsNumericKey(StrKey(s))
  {
    assert PhpStrings.SkipSpaces(s, 0) == 0;
    assert PhpStrings.SkipDigits(s, 0) == 0;
  }

  predicate UniqueKeys(a: seq<Entry>) {
    forall i, j :: 0 <= i < j < |a| ==> a[i].key != a[j].key
  }

  /** The position of key `k` in `a`, if present (its first position). */
  function IndexOf(a: seq<Entry>, k: Key): (r: Option<nat>)
    ensures r.Some? ==> r.value < |a| && a[r.value].key == k
    ensures r.Some? ==> forall j :: 0 <= j < r.value ==> a[j].key != k
    ensures r.None? ==> forall j :: 0 <= j < |a| ==> a[j].key != k
  {
    if |a| == 0 then None
    else if a[0].key == k then Some(0)
    else
      match IndexOf(a[1..], k)
      case Some(i) => Some(i + 1)
      case None => None
  }

  /** The first position holding `k` is what `IndexOf` reports. */
  lemma IndexOfFirst(a: seq<Entry>, k: Key, p: nat)
    requires p < |a| && a[p].key == k
    requires forall j :: 0 <= j < p ==> a[j].key != k
    ensures IndexOf(a, k) == Some(p)
  {
  }

  lemma IndexOfAbsent(a: seq<Entry>, k: Key)
    requires forall j :: 0 <= j < |a| ==> a[j].key != k
    ensures IndexOf(a, k) == None
  {
  }

  /** `$a[$k]` when `array_key_exists($k, $a)`, else `None`. */
  function Find(a: seq<Entry>, k: Key): Option<Value> {
    match IndexOf(a, k)
    case Some(i) => Some(a[i].val)
    case None => None
  }

  /** `array_key_exists($k, $a)`. */
  predicate HasKey(a: seq<Entry>, k: Key) {
    IndexOf(a, k).Some?
  }

  /** `isset($a[$k])`: the key is present and its value is not `null`. */
  predicate Isset(a: seq<Entry>, k: Key) {
    Find(a, k).Some? && Find(a, k).value != Null
  }

  /** Two arrays with the same key at every position agree on every
      position lookup. */
  lemma SameKeysSameIndex(a: seq<Entry>, b: seq<Entry>, k: Key)
    requires |a| == |b|
    requires forall i :: 0 <= i < |a| ==> a[i].key == b[i].key
    ensures IndexOf(a, k) == IndexOf(b, k)
  {
    match IndexOf(a, k)
    case Some(p) =>
      IndexOfFirst(b, k, p);
    case None =>
      IndexOfAbsent(b, k);
  }

  /** Looking up in an array extended by one entry. */
  lemma FindSnoc(a: seq<Entry>, e: Entry, k: Key)
    ensures Find(a + [e], k) ==
      if HasKey(a, k) then Find(a, k) else if e.key == k then Some(e.val) else None
  {
    var b := a + [e];
    assert forall j :: 0 <= j < |a| ==> b[j] == a[j];
    if HasKey(a, k) {
      IndexOfFirst(b, k, IndexOf(a, k).value);
    } else if e.key == k {
      IndexOfFirst(b, k, |a|);
    } else {
      IndexOfAbsent(b, k);
    }
  }

  /** `$a[$k] = $v`: overwrite in place when the key exists, else add the
      entry at the end. */
  function Assign(a: seq<Entry>, k: Key, v: Value): (r: seq<Entry>)
    ensures Find(r, k) == Some(v)
    ensures forall k' {:trigger Find(r, k')} :: k' != k ==> Find(r, k') == Find(a, k')
    ensures HasKey(a, k) ==> |r| == |a| && forall i :: 0 <= i < |a| ==> r[i].key == a[i].key
    ensures !HasKey(a, k) ==> r == a + [Entry(k, v)]
    ensures forall k' :: HasKey(a, k') ==> HasKey(r, k')
    ensures UniqueKeys(a) ==> UniqueKeys(r)
  {
    match IndexOf(a, k)
    case Some(i) =>
      var r := a[i := Entry(k, v)];
      forall k' ensures IndexOf(r, k') == IndexOf(a, k') {
        SameKeysSameIndex(r, a, k');
      }
      r
    case None =>
      var r := a + [Entry(k, v)];
      forall k' ensures Find(r, k') == if HasKey(a, k') then Find(a, k') else if k == k' then Some(v) else None {
        FindSnoc(a, Entry(k, v), k');
      }
      r
  }

  predicate HasIntKey(a: seq<Entry>) {
    exists i :: 0 <= i < |a| && a[i].key.IntKey?
  }

  /** The key `$a[] = $v` uses: one more than the largest integer key, or 0
      when the array has no integer key (PHP 8.3 and later). */
  function NextIndex(a: seq<Entry>): (r: int)
    ensures forall i :: 0 <= i < |a| && a[i].key.IntKey? ==> a[i].key.i < r
    ensures !HasIntKey(a) ==> r == 0
    ensures HasIntKey(a) ==> exists i :: 0 <= i < |a| && a[i].key == IntKey(r - 1)
  {
    if |a| == 0 then 0
    else
      var rest := NextIndex(a[1..]);
      assert forall j :: 0 <= j < |a| - 1 ==> a[1..][j] == a[j + 1];
      match a[0].key
      case StrKey(_) => rest
      case IntKey(n) => if HasIntKey(a[1..]) && rest > n + 1 then rest else n + 1
  }

  /** `$a[] = $v`. */
  function Append(a: seq<Entry>, v: Value): (r: seq<Entry>)
    ensures r == a + [Entry(IntKey(NextIndex(a)), v)]
    ensures !HasKey(a, IntKey(NextIndex(a)))
    ensures Find(r, IntKey(NextIndex(a))) == Some(v)
    ensures forall k {:trigger Find(r, k)} :: k != IntKey(NextIndex(a)) ==> Find(r, k) == Find(a, k)
    ensures forall k :: HasKey(a, k) ==> Find(r, k) == Find(a, k)
    ensures UniqueKeys(a) ==> UniqueKeys(r)
  {
    var n := NextIndex(a);
    var e := Entry(IntKey(n), v);
    assert !HasKey(a, IntKey(n)) by {
      IndexOfAbsent(a, IntKey(n));
    }
    forall k ensures Find(a + [e], k) == if HasKey(a, k) then Find(a, k) else if e.key == k then Some(v) else None {
      FindSnoc(a, e, k);
    }
    a + [e]
  }

  /** `unset($a[$k])`. */
  function Unset(a: seq<Entry>, k: Key): (r: seq<Entry>)
    ensures UniqueKeys(a) ==> Find(r, k) == None
    ensures forall k' {:trigger Find(r, k')} :: k' != k ==> Find(r, k') == Find(a, k')
    ensures HasKey(a, k) ==> |r| == |a| - 1
    ensures !HasKey(a, k) ==> r == a
    ensures UniqueKeys(a) ==> UniqueKeys(r)
  {
    match IndexOf(a, k)
    case None => a
    case Some(i) =>
      UnsetAt(a, k, i);
      RemoveAt(a, i)
  }

  /** The array without its entry at position `i`. */
  function RemoveAt(a: seq<Entry>, i: nat): (r: seq<Entry>)
    requires i < |a|
    ensures |r| == |a| - 1
    ensures forall j :: 0 <= j < i ==> r[j] == a[j]
    ensures forall j :: i <= j < |r| ==> r[j] == a[j + 1]
  {
    a[..i] + a[i + 1..]
  }

  /** Removing an entry does not disturb the lookup of another key. */
  lemma UnsetOther(a: seq<Entry>, i: nat, k': Key)
    requires i < |a| && a[i].key != k'
    ensures Find(RemoveAt(a, i), k') == Find(a, k')
  {
    var r := RemoveAt(a, i);
    match IndexOf(a, k')
    case Some(q) =>
      var p := if q < i then q else q - 1;
      assert r[p] == a[q];
      IndexOfFirst(r, k', p);
    case None =>
      IndexOfAbsent(r, k');
  }

  /** What removing the entry at the first position of `k` does to lookups. */
  lemma UnsetAt(a: seq<Entry>, k: Key, i: nat)
    requires IndexOf(a, k) == Some(i)
    ensures var r := RemoveAt(a, i);
      && (UniqueKeys(a) ==> Find(r, k) == None)
      && (forall k' :: k' != k ==> Find(r, k') == Find(a, k'))
      && (UniqueKeys(a) ==> UniqueKeys(r))
  {
    var r := RemoveAt(a, i);
    forall k' | k' != k ensures Find(r, k') == Find(a, k') {
      UnsetOther(a, i, k');
    }
    if UniqueKeys(a) {
      IndexOfAbsent(r, k);
    }
  }

  /** `in_array($v, $a)`, with PHP's loose comparison approximated by
      structural equality. */
  function Contains(a: seq<Entry>, v: Value): (r: bool)
    ensures r <==> exists i :: 0 <= i < |a| && a[i].val == v
  {
    if |a| == 0 then false
    else if a[0].val == v then true
    else
      var r := Contains(a[1..], v);
      assert forall i :: 1 <= i < |a| ==> a[i] == a[1..][i - 1];
      r
  }

  /** No value occurs twice. */
  predicate DistinctValues(a: seq<Entry>) {
    forall i, j :: 0 <= i < j < |a| ==> a[i].val != a[j].val
  }

  /** `property_exists($o, $name) ? $o->$name : ...` on an object's properties. */
  function FindProp(ps: seq<Prop>, name: string): (r: Option<Value>)
    ensures r.Some? ==> Prop(name, r.value) in ps
    ensures r.None? ==> forall i :: 0 <= i < |ps| ==> ps[i].name != name
  {
    if |ps| == 0 then None
    else if ps[0].name == name then Some(ps[0].val)
    else FindProp(ps[1..], name)
  }

  /** `gettype($v)`. */
  function TypeName(v: Value): string {
    match v
    case Null => "NULL"
    case Bool(_) => "boolean"
    case Int(_) => "integer"
    case Str(_) => "string"
    case Arr(_) => "array"
    case Obj(_, _) => "object"
  }

  /** `gettype` tells every kind of value apart. */
  lemma TypeNameDistinguishesKinds(v: Value, w: Value)
    ensures TypeName(v) == TypeName(w) <==>
      (v.Null? && w.Null?) || (v.Bool? && w.Bool?) || (v.Int? && w.Int?) ||
      (v.Str? && w.Str?) || (v.Arr? && w.Arr?) || (v.Obj? && w.Obj?)
  {
  }

  /** PHP's conversion of a value to `bool`. */
  predicate Truthy(v: Value) {
    match v
    case Null => false
    case Bool(b) => b
    case Int(i) => i != 0
    case Str(s) => s != "" && s != "0"
    case Arr(es) => |es| > 0
    case Obj(_, _) => true
  }

  /** The PHP list `[v0, v1, ...]`. */
  function List(vs: seq<Value>): (r: seq<Entry>)
    ensures |r| == |vs|
  {
    seq(|vs|, i requires 0 <= i < |vs| => Entry(IntKey(i), vs[i]))
  }

  /** A list holds its i-th value under key i. */
  lemma ListFind(vs: seq<Value>, i: nat)
    requires i < |vs|
    ensures Find(List(vs), IntKey(i)) == Some(vs[i])
  {
    var l := List(vs);
    assert l[i].key == IntKey(i);
    assert forall j :: 0 <= j < i ==> l[j].key == IntKey(j);
    assert IndexOf(l, IntKey(i)) == Some(i);
  }

  /** The keys of a list are 0, 1, ..., so appending continues the numbering. */
  lemma ListNextIndex(vs: seq<Value>)
    ensures UniqueKeys(List(vs))
    ensures NextIndex(List(vs)) == |vs|
  {
    var l := List(vs);
    var n := NextIndex(l);
    if |vs| > 0 {
      assert l[|vs| - 1].key == IntKey(|vs| - 1);
      assert HasIntKey(l);
      var j :| 0 <= j < |l| && l[j].key == IntKey(n - 1);
      assert l[j].key == IntKey(j);
    }
  }

  lemma ListAppend(vs: seq<Value>, v: Value)
    ensures Append(List(vs), v) == List(vs + [v])
  {
    ListNextIndex(vs);
  }

  /** The tail of an array with unique keys has unique keys and does not
      contain the head's key. */
  lemma TailKeys(a: seq<Entry>)
    requires 1 <= |a| && UniqueKeys(a)
    ensures UniqueKeys(a[1..])
    ensures !HasKey(a[1..], a[0].key)
  {
    forall j | 0 <= j < |a[1..]| ensures a[1..][j].key != a[0].key {
      assert a[1..][j] == a[j + 1];
    }
    forall i, j | 0 <= i < j < |a[1..]| ensures a[1..][i].key != a[1..][j].key {
      assert a[1..][i] == a[i + 1] && a[1..][j] == a[j + 1];
    }
  }

  /** One entry of `array_merge`: integer keys are renumbered (appended),
      string keys overwrite. */
  function MergeEntryPlain(acc: seq<Entry>, e: Entry): seq<Entry> {
    if e.key.IntKey? then Append(acc, e.val) else Assign(acc, e.key, e.val)
  }

  /** `array_merge($acc, $es)` when `$acc` is already renumbered. */
  function MergeInto(acc: seq<Entry>, es: seq<Entry>): seq<Entry>
    decreases |es|
  {
    if |es| == 0 then acc else MergeInto(MergeEntryPlain(acc, es[0]), es[1..])
  }

  /** `array_merge($a0, $a1, ...)`. */
  function ArrayMerge(arrays: seq<seq<Entry>>): seq<Entry>
    decreases |arrays|
  {
    if |arrays| == 0 then [] else MergeInto(ArrayMerge(arrays[..|arrays| - 1]), arrays[|arrays| - 1])
  }

  /** Under `array_merge` a string key takes the value of the merged-in array
      when that array has the key, and keeps its earlier value otherwise. */
  lemma {:induction false} MergeIntoStringKey(acc: seq<Entry>, es: seq<Entry>, k: Key)
    requires k.StrKey?
    requires UniqueKeys(es)
    ensures Find(MergeInto(acc, es), k) == if HasKey(es, k) then Find(es, k) else Find(acc, k)
    decreases |es|
  {
    if |es| > 0 {
      var acc' := MergeEntryPlain(acc, es[0]);
      TailKeys(es);
      MergeIntoStringKey(acc', es[1..], k);
      assert es == [es[0]] + es[1..];
      FindCons(es[0], es[1..], k);
    }
  }

  /** Looking up in an array that starts with a given entry. */
  lemma FindCons(e: Entry, a: seq<Entry>, k: Key)
    ensures Find([e] + a, k) == if e.key == k then Some(e.val) else Find(a, k)
    ensures HasKey([e] + a, k) <==> e.key == k || HasKey(a, k)
  {
    var b := [e] + a;
    assert b[1..] == a;
  }
}

=== FILE: request_provider.dfy ===
/** `Everest\App\Provider\RequestProvider`: the request service, either a
    request the application defines or the one built from the PHP globals. */
module RequestProvider {
  import opened Wrappers
  import opened Framework

  /** The custom request, if one is defined. */
  datatype RequestProvider = RequestProvider(request: Option<Request>)

  /** A provider as `new RequestProvider` leaves it: no custom request. */
  function New(): (p: RequestProvider)
    ensures p.request.None?
  {
    RequestProvider(None)
  }

  /** The public `factory` property: the factory method, no dependencies. */
  function FactoryProperty(): (d: FactoryDefinition)
    ensures d.dependencies == []
    ensures d.factory == Method("RequestProvider", "factory")
  {
    FactoryDefinition([], Method("RequestProvider", "factory"))
  }

  /** The public `delegates` property. */
  function Delegates(): (d: map<string, Callable>)
    ensures d.Keys == {"defineRequest"}
    ensures d["defineRequest"] == Method("RequestProvider", "setRequest")
  {
    map["defineRequest" := Method("RequestProvider", "setRequest")]
  }

  /** `setRequest($request)`; passing null (`None`) clears the custom request. */
  function SetRequest(p: RequestProvider, request: Option<Request>): (r: RequestProvider)
    ensures r.request == request
  {
    p.(request := request)
  }

  /** The message PHP gives when the fallback class cannot be found: the file
      imports `ServerRequests`, so the unqualified `ServerRequest` names a
      class of the provider's own namespace. */
  const MissingServerRequest: string := "Class \"Everest\\App\\Provider\\ServerRequest\" not found"

  /** `factory()` as written: a custom request object is truthy and is
      returned; otherwise the fallback class does not resolve and PHP raises
      an error. */
  function FactoryAsWritten(p: RequestProvider): (r: Result<Request>)
    ensures p.request.Some? ==> r == Ok(p.request.value)
    ensures p.request.None? ==> r == Throw(Error(MissingServerRequest))
  {
    match p.request
    case Some(request) => Ok(request)
    case None => Throw(Error(MissingServerRequest))
  }

  /** `factory()` as intended: the custom request, else the request
      `ServerRequest::fromGlobals()` builds, given here as `global`. */
  function Factory(p: RequestProvider, global: Request): (r: Request)
    ensures p.request.Some? ==> r == p.request.value
    ensures p.request.None? ==> r == global
  {
    p.request.GetOr(global)
  }

  /** As written, a provider without a custom request can never produce one. */
  lemma FactoryAsWrittenFailsWithoutRequest(global: Request)
    ensures FactoryAsWritten(New()).Throw?
    ensures FactoryAsWritten(SetRequest(New(), None)).Throw?
    ensures Factory(New(), global) == global
  {
  }

  /** Where a custom request is defined, the written and the intended factory
      agree; `setRequest(null)` restores the global request. */
  lemma FactoryAgreesOnCustomRequest(p: RequestProvider, request: Request, global: Request)
    ensures FactoryAsWritten(SetRequest(p, Some(request))) == Ok(Factory(SetRequest(p, Some(request)), global))
    ensures Factory(SetRequest(p, Some(request)), global) == request
    ensures Factory(SetRequest(SetRequest(p, Some(request)), None), global) == global
  {
  }
}

=== FILE: router_provider.dfy ===
/** `Everest\App\Provider\RouterProvider`: the router as a container
    provider. Routes, contexts and the default handler are wrapped so that the
    injector resolves their dependencies when they run; the route matching of
    the parent `Router` is not part of this model. */
module RouterProvider {
  import opened Wrappers
  import opened PhpValues
  import opened Framework

  /** The injector the container hands to `factory`, kept opaque. */
  datatype Injector = Injector(id: nat)

  /** What a wrapping closure passes to the injector besides the handler:
      a plain value, or the router provider itself (`$this`). */
  datatype Argument = Plain(v: Value) | ThisRouter

  /** A handler as the provider wraps it before handing it to the parent
      router. The handler itself is kept as given (a callable or a dependency
      array). */
  datatype Wrapped =
    | RouteHandler(handler: Value)
    | ContextInvoker(invoker: Value)
    | DefaultHandler(handler: Value)

  /** The provider's state: the construction flag, the injector received by
      `factory`, and what has been handed to the parent router. */
  datatype RouterProvider = RouterProvider(
    constructed: bool,
    injector: Option<Injector>,
    routes: seq<(Value, Wrapped)>,
    contexts: seq<(string, Wrapped)>,
    otherwise: Option<Wrapped>)

  /** A provider as `new RouterProvider` leaves it. */
  function New(): (p: RouterProvider)
    ensures !p.constructed && p.injector.None?
    ensures p.routes == [] && p.contexts == [] && p.otherwise.None?
  {
    RouterProvider(false, None, [], [], None)
  }

  /** `getFactory()`: the factory needs the injector and nothing else. */
  function GetFactory(): (d: FactoryDefinition)
    ensures d.dependencies == ["Injector"]
    ensures d.factory == Method("RouterProvider", "factory")
  {
    FactoryDefinition(["Injector"], Method("RouterProvider", "factory"))
  }

  /** The method names `getDelegates()` exposes. */
  const DelegateNames: set<string> := {"context", "request", "get", "post", "put", "delete", "any", "otherwise"}

  /** `getDelegates()`: each delegate name is mapped to the provider's method
      of the same name. */
  function GetDelegates(): (d: map<string, Callable>)
    ensures d.Keys == DelegateNames
    ensures forall name :: name in d ==> d[name] == Method("RouterProvider", name)
  {
    map name | name in DelegateNames :: Method("RouterProvider", name)
  }

  /** There is no `patch` delegate. */
  lemma NoPatchDelegate()
    ensures "patch" !in GetDelegates()
    ensures |GetDelegates()| == 8
  {
    var d := GetDelegates();
    assert d.Keys == DelegateNames;
    assert |DelegateNames| == 8;
  }

  /** `factory($injector)`: remember the injector, mark the provider
      constructed and return the provider itself, which then serves as the
      router instance. */
  function Factory(p: RouterProvider, injector: Injector): (r: RouterProvider)
    ensures r.constructed && r.injector == Some(injector)
    ensures r.routes == p.routes && r.contexts == p.contexts && r.otherwise == p.otherwise
  {
    p.(constructed := true, injector := Some(injector))
  }

  /** `route($route, $handler)`: hand the wrapped handler to the parent. */
  function Route(p: RouterProvider, route: Value, handler: Value): (r: RouterProvider)
    ensures r.routes == p.routes + [(route, RouteHandler(handler))]
    ensures r.constructed == p.constructed && r.injector == p.injector
    ensures r.contexts == p.contexts && r.otherwise == p.otherwise
  {
    p.(routes := p.routes + [(route, RouteHandler(handler))])
  }

  /** `context($prefix, $invoker)`: hand the wrapped invoker to the parent. */
  function Context(p: RouterProvider, prefix: string, invoker: Value): (r: RouterProvider)
    ensures r.contexts == p.contexts + [(prefix, ContextInvoker(invoker))]
    ensures r.constructed == p.constructed && r.injector == p.injector
    ensures r.routes == p.routes && r.otherwise == p.otherwise
  {
    p.(contexts := p.contexts + [(prefix, ContextInvoker(invoker))])
  }

  /** `otherwise($handler)`: hand the wrapped default handler to the parent. */
  function Otherwise(p: RouterProvider, handler: Value): (r: RouterProvider)
    ensures r.otherwise == Some(DefaultHandler(handler))
    ensures r.constructed == p.constructed && r.injector == p.injector
    ensures r.routes == p.routes && r.contexts == p.contexts
  {
    p.(otherwise := Some(DefaultHandler(handler)))
  }

  /** The call `$this->injector->invoke($dependencies, $locals, $arguments)`
      a wrapper makes. */
  datatype InjectorCall = InjectorCall(
    injector: Injector,
    dependencies: Value,
    locals: map<string, Argument>,
    arguments: seq<Argument>)

  /** What the parent router passes to a wrapper when it runs it. */
  datatype RouterCall =
    | RouteMatched(request: Request, parameter: Value, middlewareArguments: seq<Value>)
    | ContextEntered
    | NothingMatched(request: Request)

  /** Running a wrapper: the injector call it makes with the injector the
      provider holds at that moment; calling `invoke` on a missing injector is
      an engine error. */
  function Run(p: RouterProvider, w: Wrapped, call: RouterCall): (r: Result<InjectorCall>)
    requires w.RouteHandler? ==> call.RouteMatched?
    requires w.DefaultHandler? ==> call.NothingMatched?
    ensures p.injector.None? <==> r.Throw?
    ensures r.Throw? ==> r.exception.Error?
    ensures r.Ok? ==> r.value.injector == p.injector.value
    ensures r.Ok? && w.RouteHandler? ==>
      && r.value.dependencies == w.handler
      && r.value.locals == map["RouteParameter" := Plain(call.parameter), "Request" := Plain(call.request)]
      && |r.value.arguments| == |call.middlewareArguments|
      && forall i :: 0 <= i < |r.value.arguments| ==> r.value.arguments[i] == Plain(call.middlewareArguments[i])
    ensures r.Ok? && w.ContextInvoker? ==>
      && r.value.dependencies == w.invoker
      && r.value.locals == map[]
      && r.value.arguments == [ThisRouter]
    ensures r.Ok? && w.DefaultHandler? ==>
      && r.value.dependencies == w.handler
      && r.value.locals == map["Request" := Plain(call.request)]
      && r.value.arguments == []
  {
    match p.injector
    case None => Throw(Error("Call to a member function invoke() on null"))
    case Some(injector) =>
      match w
      case RouteHandler(handler) =>
        Ok(InjectorCall(injector, handler,
          map["RouteParameter" := Plain(call.parameter), "Request" := Plain(call.request)],
          seq(|call.middlewareArguments|, i requires 0 <= i < |call.middlewareArguments| => Plain(call.middlewareArguments[i]))))
      case ContextInvoker(invoker) =>
        Ok(InjectorCall(injector, invoker, map[], [ThisRouter]))
      case DefaultHandler(handler) =>
        Ok(InjectorCall(injector, handler, map["Request" := Plain(call.request)], []))
  }

  /** A route added while the provider is still being configured runs, once
      `factory` has been called, through the injector `factory` received: the
      wrapper reads the injector when it runs, not when it is made. */
  lemma RouteUsesInjectorGivenLater(p: RouterProvider, route: Value, handler: Value, injector: Injector,
                                    request: Request, parameter: Value, middleware: seq<Value>)
    ensures var q := Factory(Route(p, route, handler), injector);
      Run(q, q.routes[|q.routes| - 1].1, RouteMatched(request, parameter, middleware)).Ok?
      && Run(q, q.routes[|q.routes| - 1].1, RouteMatched(request, parameter, middleware)).value
         == InjectorCall(injector, handler,
              map["RouteParameter" := Plain(parameter), "Request" := Plain(request)],
              seq(|middleware|, i requires 0 <= i < |middleware| => Plain(middleware[i])))
  {
  }

  /** `handle($request)`: refused until `factory` has run; afterwards the
      parent router's `handle`, given here as a function, answers. */
  function Handle(p: RouterProvider, request: Request, parentHandle: Request -> Response): (r: Result<Response>)
    ensures !p.constructed ==> r == Throw(LogicException)
    ensures p.constructed ==> r == Ok(parentHandle(request))
  {
    if !p.constructed then Throw(LogicException) else Ok(parentHandle(request))
  }

  /** Only the router instance made by `factory` handles requests: the
      configuration-time provider always refuses. */
  lemma HandleNeedsFactory(p: RouterProvider, injector: Injector, request: Request, parentHandle: Request -> Response)
    ensures Handle(New(), request, parentHandle) == Throw(LogicException)
    ensures Handle(Factory(p, injector), request, parentHandle) == Ok(parentHandle(request))
  {
  }
}

=== FILE: session.dfy ===
/** `Everest\App\Session`: the option set a session is built with, and the
    key-value operations on the session store `$_SESSION`. Starting, stopping
    and destroying the PHP session are not part of this model. */
module Session {
  import opened Wrappers
  import opened PhpValues

  /** The store `$_SESSION`, a PHP array. */
  type Store = seq<Entry>

  /** The built-in defaults: not secure, not HTTP-only, cookies only. */
  function Defaults(): seq<Entry> {
    [Entry(StrKey("secure"), Bool(false)),
     Entry(StrKey("httponly"), Bool(false)),
     Entry(StrKey("cookieonly"), Bool(true))]
  }

  /** A session object: the options it was constructed with. */
  datatype Session = Session(options: seq<Entry>)

  /** `new Session($options)`: the cookie parameters PHP reports, overridden
      by the defaults, overridden by the caller's options. */
  function New(cookieParams: seq<Entry>, options: seq<Entry>): (s: Session)
    ensures UniqueKeys(cookieParams) && UniqueKeys(options) ==>
      forall k: Key :: k.StrKey? ==>
        Find(s.options, k) == (if HasKey(options, k) then Find(options, k)
                               else if HasKey(Defaults(), k) then Find(Defaults(), k)
                               else Find(cookieParams, k))
  {
    ArrayMergePrecedenceAll(cookieParams, options);
    Session(ArrayMerge([cookieParams, Defaults(), options]))
  }

  /** `array_merge` of one array keeps its string-keyed entries. */
  lemma MergeIntoEmpty(a: seq<Entry>, k: Key)
    requires k.StrKey? && UniqueKeys(a)
    ensures Find(MergeInto([], a), k) == Find(a, k)
  {
    MergeIntoStringKey([], a, k);
    if !HasKey(a, k) {
      IndexOfAbsent([], k);
    }
  }

  /** `array_merge($a, $b, $c)` merges the three arrays in turn. */
  lemma ArrayMergeThree(a: seq<Entry>, b: seq<Entry>, c: seq<Entry>)
    ensures ArrayMerge([a, b, c]) == MergeInto(MergeInto(MergeInto([], a), b), c)
  {
    var arrays := [a, b, c];
    assert arrays[..2] == [a, b];
    assert [a, b][..1] == [a];
    assert [a][..0] == [];
    assert ArrayMerge([a]) == MergeInto([], a);
    assert ArrayMerge([a, b]) == MergeInto(ArrayMerge([a]), b);
    assert ArrayMerge(arrays) == MergeInto(ArrayMerge([a, b]), c);
  }

  /** Option precedence: a string-keyed option comes from the caller's
      options if they set it, else from the defaults, else from the cookie
      parameters. */
  lemma ArrayMergePrecedence(cookieParams: seq<Entry>, options: seq<Entry>, k: Key)
    requires k.StrKey?
    requires UniqueKeys(cookieParams) && UniqueKeys(options)
    ensures Find(ArrayMerge([cookieParams, Defaults(), options]), k) ==
      if HasKey(options, k) then Find(options, k)
      else if HasKey(Defaults(), k) then Find(Defaults(), k)
      else Find(cookieParams, k)
  {
    var d := Defaults();
    assert UniqueKeys(d);
    ArrayMergeThree(cookieParams, d, options);
    MergeIntoEmpty(cookieParams, k);
    MergeIntoStringKey(MergeInto([], cookieParams), d, k);
    MergeIntoStringKey(MergeInto(MergeInto([], cookieParams), d), options, k);
  }

  /** `ArrayMergePrecedence` for every string key at once. */
  lemma ArrayMergePrecedenceAll(cookieParams: seq<Entry>, options: seq<Entry>)
    ensures UniqueKeys(cookieParams) && UniqueKeys(options) ==>
      forall k: Key :: k.StrKey? ==>
        Find(ArrayMerge([cookieParams, Defaults(), options]), k)
          == (if HasKey(options, k) then Find(options, k)
              else if HasKey(Defaults(), k) then Find(Defaults(), k)
              else Find(cookieParams, k))
  {
    if UniqueKeys(cookieParams) && UniqueKeys(options) {
      forall k: Key | k.StrKey?
        ensures Find(ArrayMerge([cookieParams, Defaults(), options]), k) ==
          if HasKey(options, k) then Find(options, k)
          else if HasKey(Defaults(), k) then Find(Defaults(), k)
          else Find(cookieParams, k)
      {
        ArrayMergePrecedence(cookieParams, options, k);
      }
    }
  }

  /** Without caller options the defaults stand, whatever the cookie
      parameters say. */
  lemma DefaultsOverrideCookieParams(cookieParams: seq<Entry>)
    requires UniqueKeys(cookieParams)
    ensures Find(New(cookieParams, []).options, StrKey("secure")) == Some(Bool(false))
    ensures Find(New(cookieParams, []).options, StrKey("httponly")) == Some(Bool(false))
    ensures Find(New(cookieParams, []).options, StrKey("cookieonly")) == Some(Bool(true))
  {
    IndexOfAbsent([], StrKey("secure"));
    IndexOfAbsent([], StrKey("httponly"));
    IndexOfAbsent([], StrKey("cookieonly"));
    ArrayMergePrecedence(cookieParams, [], StrKey("secure"));
    ArrayMergePrecedence(cookieParams, [], StrKey("httponly"));
    ArrayMergePrecedence(cookieParams, [], StrKey("cookieonly"));
  }

  /** `has($key)`: the key is set and not null. */
  function Has(store: Store, key: string): (b: bool)
    ensures b <==> exists i :: (&& 0 <= i < |store| && store[i].key == KeyOf(key) && store[i].val != Null
                                && forall j :: 0 <= j < i ==> store[j].key != KeyOf(key))
  {
    Isset(store, KeyOf(key))
  }

  /** `get($key)`: the stored value, or null when the key is not set. */
  function Get(store: Store, key: string): (v: Value)
    ensures Has(store, key) <==> v != Null
    ensures Has(store, key) ==> Some(v) == Find(store, KeyOf(key))
  {
    if Has(store, key) then Find(store, KeyOf(key)).value else Null
  }

  /** `set($key, $value)`. */
  function Set(store: Store, key: string, value: Value): (r: Store)
    ensures Get(r, key) == value
    ensures forall other :: other != key ==> Get(r, other) == Get(store, other)
    ensures UniqueKeys(store) ==> UniqueKeys(r)
  {
    var r := Assign(store, KeyOf(key), value);
    forall other | other != key ensures Get(r, other) == Get(store, other) {
      if KeyOf(other) == KeyOf(key) {
        KeyOfInjective(other, key);
      }
    }
    r
  }

  /** `push($key, $value)`: start a list, extend a list, or pair an existing
      single value with the new one. */
  function Push(store: Store, key: string, value: Value): (r: Store)
    ensures !Has(store, key) ==> Get(r, key) == Arr(List([value]))
    ensures Get(store, key).Arr? ==> Get(r, key) == Arr(Append(Get(store, key).entries, value))
    ensures Has(store, key) && !Get(store, key).Arr? ==> Get(r, key) == Arr(List([Get(store, key), value]))
    ensures forall other :: other != key ==> Get(r, other) == Get(store, other)
  {
    if !Has(store, key) then Set(store, key, Arr(List([value])))
    else
      match Get(store, key)
      case Arr(es) => Set(store, key, Arr(Append(es, value)))
      case current => Set(store, key, Arr(List([current, value])))
  }

  /** Pushing onto a list keeps its values and puts the new one last. */
  lemma PushOntoList(store: Store, key: string, values: seq<Value>, value: Value)
    requires Get(store, key) == Arr(List(values))
    ensures Get(Push(store, key, value), key) == Arr(List(values + [value]))
  {
    ListAppend(values, value);
  }

  /** `delete($key)`. */
  function Delete(store: Store, key: string): (r: Store)
    ensures UniqueKeys(store) ==> !HasKey(r, KeyOf(key)) && !Has(r, key)
    ensures forall other :: other != key ==> Get(r, other) == Get(store, other)
    ensures HasKey(store, KeyOf(key)) ==> |r| == |store| - 1
    ensures !HasKey(store, KeyOf(key)) ==> r == store
  {
    var r := Unset(store, KeyOf(key));
    forall other | other != key ensures Get(r, other) == Get(store, other) {
      if KeyOf(other) == KeyOf(key) {
        KeyOfInjective(other, key);
      }
    }
    r
  }

  /** `count()`: the number of stored entries, null-valued ones included. */
  function Count(store: Store): (n: nat)
    ensures n == 0 <==> forall k :: !HasKey(store, k)
  {
    if |store| == 0 then 0
    else
      assert HasKey(store, store[0].key);
      |store|
  }

  /** Setting a new key adds one entry; setting an existing key adds none. */
  lemma CountAfterSet(store: Store, key: string, value: Value)
    ensures HasKey(store, KeyOf(key)) ==> Count(Set(store, key, value)) == Count(store)
    ensures !HasKey(store, KeyOf(key)) ==> Count(Set(store, key, value)) == Count(store) + 1
  {
  }

  /** `with`, `withAdded` and `without`: not implemented, they always throw
      and leave the store as it was. */
  datatype Unimplemented = With(key: string, value: Value) | WithAdded(key: string, value: Value) | Without(key: string)

  function Refuse(store: Store, call: Unimplemented): (r: (Store, Result<Value>))
    ensures r.0 == store
    ensures r.1 == Throw(LogicException)
  {
    (store, Throw(LogicException))
  }
}

=== FILE: session_provider.dfy ===
/** `Everest\App\Provider\SessionProvider`: builds the session from the
    `session` section of the options and starts it unless told otherwise. */
module SessionProvider {
  import opened Wrappers
  import opened PhpValues
  import opened Framework
  import O = Options
  import S = Session

  /** `STATE_IDLE` (0) and `STATE_INITIALIZED` (1). */
  datatype State = Idle | Initialized

  datatype SessionProvider = SessionProvider(state: State)

  /** A provider as `new SessionProvider` leaves it. */
  function New(): (p: SessionProvider)
    ensures p.state == Idle
  {
    SessionProvider(Idle)
  }

  /** What `getFactory()` returns and the provider afterwards. */
  datatype FactoryResult = FactoryResult(provider: SessionProvider, definition: FactoryDefinition)

  /** `getFactory()`: marks the provider initialized, whatever its state, and
      returns a factory that needs the options and nothing else. */
  function GetFactory(p: SessionProvider): (r: FactoryResult)
    ensures r.provider.state == Initialized
    ensures r.definition.dependencies == ["Options"]
  {
    FactoryResult(SessionProvider(Initialized), FactoryDefinition(["Options"], Closure("session factory")))
  }

  /** What the factory closure produces: the session, and whether it was
      started before being returned. */
  datatype Built = Built(session: S.Session, started: bool)

  /** The factory closure, given the options and the cookie parameters PHP
      reports. `$options('session.options', [])` must be an array, as the
      session constructor demands; `$options('session.auto_start', true)`
      decides by PHP truthiness whether the session is started. Neither
      lookup can throw, since both defaults are non-null. */
  function Build(options: O.Options, cookieParams: seq<Entry>): (r: Result<Built>)
    ensures O.Lookup(options, "session.options", Arr([])).Ok?
    ensures O.Lookup(options, "session.options", Arr([])).value.Arr? <==> r.Ok?
    ensures r.Throw? ==> r.exception == TypeError
    ensures r.Ok? ==> r.value.session == S.New(cookieParams, O.Lookup(options, "session.options", Arr([])).value.entries)
    ensures r.Ok? ==>
      var setting := O.At(Arr(options.entries), "session.auto_start");
      (r.value.started <==> setting.None? || Truthy(setting.value))
  {
    var sessionOptions := O.Lookup(options, "session.options", Arr([])).value;
    if !sessionOptions.Arr? then Throw(TypeError)
    else
      var session := S.New(cookieParams, sessionOptions.entries);
      Ok(Built(session, Truthy(O.Lookup(options, "session.auto_start", Bool(true)).value)))
  }

  /** The option paths the factory reads, as section and key. */
  lemma OptionsPathSplits()
    ensures "session" + "." + "options" == "session.options"
  {
  }

  lemma AutoStartPathSplits()
    ensures "session" + "." + "auto_start" == "session.auto_start"
  {
  }

  /** Without a `session` section the session gets no options of its own and
      is started. */
  lemma NoSessionSection(options: O.Options, cookieParams: seq<Entry>)
    requires !Isset(options.entries, KeyOf("session"))
    ensures Build(options, cookieParams) == Ok(Built(S.New(cookieParams, []), true))
  {
    O.LookupUnderMissingEntry(options.entries, "session", "options", Arr([]));
    O.LookupUnderMissingEntry(options.entries, "session", "auto_start", Bool(true));
    OptionsPathSplits();
    AutoStartPathSplits();
  }

  /** With a `session` array that sets both keys, the session gets exactly
      the configured options and is started as `auto_start` says. */
  lemma ConfiguredSession(options: O.Options, cookieParams: seq<Entry>, section: seq<Entry>,
                          sessionOptions: seq<Entry>, autoStart: Value)
    requires Find(options.entries, KeyOf("session")) == Some(Arr(section))
    requires Find(section, KeyOf("options")) == Some(Arr(sessionOptions))
    requires Find(section, KeyOf("auto_start")) == Some(autoStart) && autoStart != Null
    ensures Build(options, cookieParams) == Ok(Built(S.New(cookieParams, sessionOptions), Truthy(autoStart)))
  {
    O.LookupEntryPath(options.entries, "session", section, "options", Arr([]));
    O.LookupEntryPath(options.entries, "session", section, "auto_start", Bool(true));
    OptionsPathSplits();
    AutoStartPathSplits();
  }

  /** A `session.options` entry that is not an array stops the factory. */
  lemma NonArraySessionOptions(options: O.Options, cookieParams: seq<Entry>, section: seq<Entry>, bad: Value)
    requires Find(options.entries, KeyOf("session")) == Some(Arr(section))
    requires Find(section, KeyOf("options")) == Some(bad) && bad != Null && !bad.Arr?
    ensures Build(options, cookieParams) == Throw(TypeError)
  {
    O.LookupEntryPath(options.entries, "session", section, "options", Arr([]));
    OptionsPathSplits();
  }
}

=== FILE: twig_provider.dfy ===
/** `Everest\App\Provider\TwigProvider`: collects the loader, options,
    filters and extensions of a Twig environment during configuration and
    builds the environment from them. Twig itself is not part of this model:
    the environment is the record of what it is given. */
module TwigProvider {
  import opened Wrappers
  import opened PhpValues
  import opened Framework

  /** The loader slot: unset, the name of a loader service, or a loader. */
  datatype Loader = NoLoader | LoaderName(service: string) | LoaderInstance(loader: Value)

  /** The provider's caches. */
  datatype TwigProvider = TwigProvider(
    loader: Loader,
    options: seq<Entry>,
    filters: seq<Value>,
    extensions: seq<Value>)

  /** `new TwigProvider`: refused when the Twig package is not available,
      otherwise all caches are empty. */
  function New(twigAvailable: bool): (r: Result<TwigProvider>)
    ensures !twigAvailable <==> r == Throw(LogicException)
    ensures r.Ok? ==> r.value.loader == NoLoader && r.value.options == []
    ensures r.Ok? ==> r.value.filters == [] && r.value.extensions == []
  {
    if !twigAvailable then Throw(LogicException) else Ok(TwigProvider(NoLoader, [], [], []))
  }

  /** The `factory` property the constructor sets. */
  function FactoryProperty(): (d: FactoryDefinition)
    ensures d.dependencies == ["Injector"]
    ensures d.factory == Method("TwigProvider", "factory")
  {
    FactoryDefinition(["Injector"], Method("TwigProvider", "factory"))
  }

  // ---------------------------------------------------------------------
  // Options
  // ---------------------------------------------------------------------

  /** `setOption($key, $value)`, with `key` the array key `$key` becomes. */
  function SetOption(p: TwigProvider, key: Key, value: Value): (r: TwigProvider)
    ensures Find(r.options, key) == Some(value)
    ensures forall k {:trigger Find(r.options, k)} :: k != key ==> Find(r.options, k) == Find(p.options, k)
    ensures r.loader == p.loader && r.filters == p.filters && r.extensions == p.extensions
  {
    p.(options := Assign(p.options, key, value))
  }

  /** `setOption` applied to the entries of `options`, first to last. */
  function SetOptionEach(p: TwigProvider, options: seq<Entry>): TwigProvider
    decreases |options|
  {
    if |options| == 0 then p
    else
      var last := options[|options| - 1];
      SetOption(SetOptionEach(p, options[..|options| - 1]), last.key, last.val)
  }

  /** Setting the entries of an array changes only the options. */
  lemma {:induction false} SetOptionEachKeepsRest(p: TwigProvider, options: seq<Entry>)
    ensures var r := SetOptionEach(p, options);
      r.loader == p.loader && r.filters == p.filters && r.extensions == p.extensions
    decreases |options|
  {
    if |options| > 0 {
      SetOptionEachKeepsRest(p, options[..|options| - 1]);
    }
  }

  /** After setting the entries of an array with unique keys, each of its
      keys holds its value. */
  lemma {:induction false} SetOptionEachSets(p: TwigProvider, options: seq<Entry>, i: nat)
    requires UniqueKeys(options) && i < |options|
    ensures Find(GetOptions(SetOptionEach(p, options)), options[i].key) == Some(options[i].val)
    decreases |options|
  {
    var n := |options| - 1;
    if i < n {
      var init := options[..n];
      assert init[i] == options[i];
      assert options[i].key != options[n].key;
      SetOptionEachSets(p, init, i);
    }
  }

  /** Setting the entries of an array leaves every option whose key the array
      does not have as it was. */
  lemma {:induction false} SetOptionEachKeepsOthers(p: TwigProvider, options: seq<Entry>, k: Key)
    requires !HasKey(options, k)
    ensures Find(GetOptions(SetOptionEach(p, options)), k) == Find(GetOptions(p), k)
    decreases |options|
  {
    if |options| > 0 {
      var n := |options| - 1;
      var init := options[..n];
      assert options[n].key != k;
      assert forall j :: 0 <= j < |init| ==> init[j] == options[j];
      IndexOfAbsent(init, k);
      SetOptionEachKeepsOthers(p, init, k);
    }
  }

  /** `setOptions($options)`: the loop over the array, calling `setOption`
      for each entry in order. */
  method SetOptions(p: TwigProvider, options: seq<Entry>) returns (r: TwigProvider)
    ensures r == SetOptionEach(p, options)
    ensures UniqueKeys(options) ==>
      forall i :: 0 <= i < |options| ==> Find(GetOptions(r), options[i].key) == Some(options[i].val)
    ensures forall k :: !HasKey(options, k) ==> Find(GetOptions(r), k) == Find(GetOptions(p), k)
  {
    r := p;
    var i := 0;
    while i < |options|
      invariant 0 <= i <= |options|
      invariant r == SetOptionEach(p, options[..i])
    {
      assert options[..i + 1][..i] == options[..i];
      r := SetOption(r, options[i].key, options[i].val);
      i := i + 1;
    }
    assert options[..i] == options;
    if UniqueKeys(options) {
      forall j | 0 <= j < |options|
        ensures Find(GetOptions(r), options[j].key) == Some(options[j].val)
      {
        SetOptionEachSets(p, options, j);
      }
    }
    forall k | !HasKey(options, k)
      ensures Find(GetOptions(r), k) == Find(GetOptions(p), k)
    {
      SetOptionEachKeepsOthers(p, options, k);
    }
  }

  /** `getOptions()`. */
  function GetOptions(p: TwigProvider): seq<Entry> {
    p.options
  }

  // ---------------------------------------------------------------------
  // Loader, filters and extensions
  // ---------------------------------------------------------------------

  /** `setLoader($loader)`: a service name or a loader; `null` violates the
      parameter type. */
  function SetLoader(p: TwigProvider, loader: Loader): (r: Result<TwigProvider>)
    ensures loader.NoLoader? <==> r == Throw(TypeError)
    ensures r.Ok? ==> r.value.loader == loader
    ensures r.Ok? ==> r.value.options == p.options && r.value.filters == p.filters && r.value.extensions == p.extensions
  {
    if loader.NoLoader? then Throw(TypeError) else Ok(p.(loader := loader))
  }

  /** `getLoader()`: the declared return type refuses the unset loader. */
  function GetLoader(p: TwigProvider): (r: Result<Loader>)
    ensures p.loader.NoLoader? <==> r == Throw(TypeError)
    ensures r.Ok? ==> r.value == p.loader
  {
    if p.loader.NoLoader? then Throw(TypeError) else Ok(p.loader)
  }

  /** A loader once set is what `getLoader` returns. */
  lemma SetThenGetLoader(p: TwigProvider, loader: Loader)
    ensures SetLoader(p, loader).Ok? ==> GetLoader(SetLoader(p, loader).value) == Ok(loader)
  {
  }

  /** `addFilter($filter)`. */
  function AddFilter(p: TwigProvider, filter: Value): (r: TwigProvider)
    ensures r.filters == p.filters + [filter]
    ensures r.loader == p.loader && r.options == p.options && r.extensions == p.extensions
  {
    p.(filters := p.filters + [filter])
  }

  /** `addExtension($extension)`. */
  function AddExtension(p: TwigProvider, extension: Value): (r: TwigProvider)
    ensures r.extensions == p.extensions + [extension]
    ensures r.loader == p.loader && r.options == p.options && r.filters == p.filters
  {
    p.(extensions := p.extensions + [extension])
  }

  /** `getFilters()`. */
  function GetFilters(p: TwigProvider): seq<Value> {
    p.filters
  }

  /** `getExtensions()`. */
  function GetExtensions(p: TwigProvider): seq<Value> {
    p.extensions
  }

  /** Filters and extensions are kept in registration order, each kind on its
      own: interleaving the two kinds of registration does not matter. */
  lemma RegistrationOrderPerKind(p: TwigProvider, f1: Value, f2: Value, e: Value)
    ensures GetFilters(AddFilter(AddExtension(AddFilter(p, f1), e), f2)) == GetFilters(p) + [f1, f2]
    ensures GetExtensions(AddFilter(AddExtension(AddFilter(p, f1), e), f2)) == GetExtensions(p) + [e]
    ensures AddFilter(AddExtension(AddFilter(p, f1), e), f2) == AddExtension(AddFilter(AddFilter(p, f1), f2), e)
  {
  }

  // ---------------------------------------------------------------------
  // Factory
  // ---------------------------------------------------------------------

  /** What the environment receives after construction, in call order. */
  datatype Addition = AddedFilter(filter: Value) | AddedExtension(extension: Value)

  /** The environment as constructed: its loader and options, then the
      filters and extensions added to it. */
  datatype Environment = Environment(loader: Value, options: seq<Entry>, additions: seq<Addition>)

  /** The provider after `factory` and the environment it returns. */
  datatype Made = Made(provider: TwigProvider, environment: Environment)

  /** `factory($injector)`, with `injectorGet` standing for `$injector->get`.
      No loader is a logic error; a loader name is resolved through the
      injector and the resolved loader replaces the name; the environment then
      gets every filter and afterwards every extension, each in registration
      order. */
  method Factory(p: TwigProvider, injectorGet: string -> Result<Value>) returns (r: Result<Made>)
    ensures p.loader.NoLoader? ==> r == Throw(LogicException)
    ensures p.loader.LoaderName? && injectorGet(p.loader.service).Throw? ==>
      r == Throw(injectorGet(p.loader.service).exception)
    ensures p.loader.LoaderName? && injectorGet(p.loader.service).Ok? ==>
      r.Ok? && r.value.provider == p.(loader := LoaderInstance(injectorGet(p.loader.service).value))
      && r.value.environment.loader == injectorGet(p.loader.service).value
    ensures p.loader.LoaderInstance? ==>
      r.Ok? && r.value.provider == p && r.value.environment.loader == p.loader.loader
    ensures r.Ok? ==>
      var env := r.value.environment;
      && env.options == p.options
      && |env.additions| == |p.filters| + |p.extensions|
      && (forall i :: 0 <= i < |p.filters| ==> env.additions[i] == AddedFilter(p.filters[i]))
      && (forall i :: 0 <= i < |p.extensions| ==> env.additions[|p.filters| + i] == AddedExtension(p.extensions[i]))
  {
    var provider := p;
    match p.loader {
      case NoLoader =>
        return Throw(LogicException);
      case LoaderName(service) =>
        var resolved := injectorGet(service);
        if resolved.Throw? {
          return Throw(resolved.exception);
        }
        provider := p.(loader := LoaderInstance(resolved.value));
      case LoaderInstance(_) =>
    }
    var additions: seq<Addition> := [];
    var i := 0;
    while i < |p.filters|
      invariant 0 <= i <= |p.filters| && |additions| == i
      invariant forall j :: 0 <= j < i ==> additions[j] == AddedFilter(p.filters[j])
    {
      additions := additions + [AddedFilter(p.filters[i])];
      i := i + 1;
    }
    i := 0;
    while i < |p.extensions|
      invariant 0 <= i <= |p.extensions| && |additions| == |p.filters| + i
      invariant forall j :: 0 <= j < |p.filters| ==> additions[j] == AddedFilter(p.filters[j])
      invariant forall j :: 0 <= j < i ==> additions[|p.filters| + j] == AddedExtension(p.extensions[j])
    {
      additions := additions + [AddedExtension(p.extensions[i])];
      i := i + 1;
    }
    return Ok(Made(provider, Environment(provider.loader.loader, provider.options, additions)));
  }
}

=== FILE: wrappers.dfy ===
/** Failure-carrying wrappers shared by every module of the model.

    PHP signals failure by throwing; the model returns a `Result` whose
    failure case names the exception class the source throws. */
module Wrappers {

  /** The PHP `null`-or-value convention, as an explicit datatype. */
  datatype Option<+T> = None | Some(value: T) {
    function GetOr(default: T): T {
      match this
      case Some(v) => v
      case None => default
    }
  }

  /** The exception classes thrown by the modelled code. `Error` stands for
      PHP's engine errors (an unknown class, a method called on `null`);
      `ContainerFailure` for whatever the dependency-injection container,
      which is not part of this model, throws when it cannot resolve a name;
      `ContainerRefusal` for what it throws when a registration method is
      called after boot. */
  datatype Exception =
    | InvalidArgumentException
    | LogicException
    | RuntimeException
    | BadMethodCallException
    | TypeError
    | Error(reason: string)
    | ContainerFailure
    | ContainerRefusal

  /** Either the value a PHP call returns or the exception it throws. */
  datatype Result<+T> = Ok(value: T) | Throw(exception: Exception) {
    predicate IsFailure() {
      Throw?
    }

    function PropagateFailure<U>(): Result<U>
      requires Throw?
    {
      Throw(exception)
    }

    function Extract(): T
      requires Ok?
    {
      value
    }
  }
}
